=== FILE: README.md ===
# jme_DAQ acquisition node — Dafny model

This project models the control core of the jme_DAQ firmware (`main.c`). The
firmware runs on a microcontroller with two SPI masters and an lwIP network
stack. Interrupts timestamp events and raise flags. The `while(1)` main loop
does four things:

- scans four thermocouples round-robin on `SPI_MASTER_TC`;
- reads two ADCs on `SPI_MASTER_ADC` when they signal data-ready;
- stamps a 72-byte frame with three capture times and a packet counter;
- streams the frame to a collector over a TCP client with a watchdog.

The model is functional. It uses immutable state records and one pure
function per interrupt handler, main-loop branch and lwIP callback. Bytes
are integers below 256, and the C `uint32_t` counters wrap explicitly.

| file | module | models |
|---|---|---|
| `bytes.dfy` | `Bytes` | `uint8_t`/`uint32_t`, `x++` wrap-around, the big-endian codec behind `(x >> k) & 0xff` |
| `signals.dfy` | `Signals` | `millisec`, the `TC/ADC0/ADC1` `_ms/_us` stamps, `ReadTC`, `ReadADC0/1`, `tx_flag`, and the five ISRs |
| `frame.dfy` | `Frame` | the layout of `dataArray`, the dummy fill, `parseTime`, the packet-count split, and a decoder |
| `spi.dfy` | `Spi` | the two SPI masters: each is idle or busy with one transaction record |
| `scanner.dfy` | `Scanner` | the thermocouple `switch (thermocouple_ss)` branch |
| `acquisition.dfy` | `Acquisition` | the ADC0/ADC1 data-ready branches |
| `client.dfy` | `Client` | `connection_ready`, `pcb_valid`, `pcb_send`, `pcb_open`, `connect_WD`; `client_init`, `send_data`, `client_err`, `client_connected`, `client_sent` |
| `node.dfy` | `Node` | the whole state, one main-loop pass, bus completions, event runs and the reachable-state invariant |

Modelling choices:

- `ReadTC`, `ReadADC0`, `ReadADC1`, `tx_flag`, `connection_ready` and
  `pcb_valid` are booleans. The code only ever assigns 0 or 1 to them.
- `thermocouple_ss` is a full byte, so `Scanner.Step` covers the `default:`
  case for a corrupted cursor. From `Node.Start` that case is unreachable:
  `Node.Inv` keeps the cursor in 0..3.
- `SPI_MASTER_IsRxBusy` reads an abstract bus state. Issuing a transaction
  makes the master busy with that transaction. A completion event delivers
  the payload into the frame and makes the master idle again. So ADC1 cannot
  start in the same pass as ADC0, because both use `SPI_MASTER_ADC`.
- Every lwIP call becomes a `TcpCall` record: `Abort`, `Close`, `Connect` or
  `Write(frame)`. Control-block pointers become "non-null" booleans.
- There is no connection-state variable in the code. The model keeps the
  code's flags `connection_ready`, `pcb_valid`, `pcb_send` and `pcb_open`.

Where the code does not do what its own comments say, the model follows the
code:

- `packet_count` is declared as a "packet counter to check for lost packets"
  (main.c:8). But `packet_count++` runs after every call to `send_data`. This
  includes calls that take the watchdog path and write nothing
  (main.c:425-431). So the receiver sees a gap in the counter although no
  packet was lost. See `Node.WatchdogPassSkipsCount`, `Node.PacketCountSteps`
  and `Node.RunPacketCount`.
- `connect_WD` is not reset when the watchdog fires (main.c:243-248).
  `Client.WatchdogScenario` shows the count staying at 10.
  `Client.Inv` and `Client.WatchdogBranchInFlight` show why this is harmless.
  In every reachable state the watchdog branch runs only while a frame is
  in flight, which requires a successful send, and a successful send resets
  the count. So the count never exceeds 10 and never wraps.
- The thermocouples and the ADCs do not share a bus. `SPI_MASTER_TC` and
  `SPI_MASTER_ADC` are different masters (main.c:347, main.c:394). A pending
  thermocouple scan does not delay ADC0 (`Node.NoContention`). The fixed
  priority applies only between ADC0 and ADC1.
- Byte 71 is documented as the faults/fresh/stale byte (main.c:643), and the
  thermocouple branch notes that new data should be flagged (main.c:382).
  Nothing writes byte 71 after the dummy fill `dataArray[i] = i`
  (main.c:331-333), so every frame carries 71 there (`Node.Reachable`).
- The frame layout says the timer "should keep" the microsecond stamp under
  1000 (main.c:637). The stamp is `TIMER_GetTime()/100` with no bound
  (main.c:452). A capture at timer reading 100000 puts 1000 into the frame
  (`Node.MicrosReach1000`). The frame carries only the low 16 bits.
- A transmit trigger while a connection attempt is still pending finds
  `connection_ready` and `pcb_valid` both 0. It then calls `client_init`,
  which aborts the pending attempt and starts a new one (main.c:422-423 with
  main.c:130-131). So `connect_WD` never counts failed or slow connects, only
  unacknowledged sends (`Client.ConnectPendingRestarts`).

## Model

| member | source | states |
|---|---|---|
| Bytes.Inc32 | main.c:430 | `x++` on a `uint32_t` adds one, and goes from 2^32-1 back to 0 |
| Bytes.DecodeEncodeBE | main.c:571-598 | decoding an n-byte big-endian encoding gives the value modulo 256^n |
| Bytes.EncodeDecodeBE | main.c:571-598 | re-encoding a decoded byte string with its own width gives the same bytes |
| Bytes.EncodeBEShifts | main.c:573-575 | the 2-, 3- and 4-byte big-endian encodings are the C shift-and-mask byte sequences |
| Signals.Boot | main.c:8-26 | all counters, stamps and flags start at zero |
| Signals.Micros | main.c:452 | the microsecond reading is the timer reading in hundredths, rounded down |
| Signals.TimeStampIrq | main.c:444-447 | the tick adds one millisecond, wrapping at 2^32, and changes nothing else |
| Signals.TcIrq | main.c:450-455 | TCIRQ stamps the current ms and the timer's us into the TC stamp, sets ReadTC, and changes nothing else |
| Signals.Adc0Irq | main.c:459-463 | ADC0's data-ready stamps ms and us into the ADC0 stamp, sets ReadADC0, and changes nothing else |
| Signals.Adc1Irq | main.c:466-470 | ADC1's data-ready stamps ms and us into the ADC1 stamp, sets ReadADC1, and changes nothing else |
| Signals.EthIrq | main.c:473-476 | the Ethernet timer sets tx_flag and changes nothing else |
| Signals.CapturesCommute | main.c:450-470 | each capture ISR writes only its own flag and stamp, so any two captures commute; a tick before a capture raises the captured ms by one |
| Frame.LayoutTiles | main.c:617-643 | the documented fields follow each other without gap or overlap from byte 0 to byte 71 |
| Frame.InitialFrame | main.c:331-333 | before the loop, byte i of the frame holds i |
| Frame.ParseTime | main.c:571-598 | parseTime keeps the frame 72 bytes and leaves bytes 0..51 and 67..71 unchanged |
| Frame.ParseTimeDecodes | main.c:571-598 | each stamp's 3 ms bytes decode big-endian to ms mod 2^24, and its 2 us bytes to us mod 2^16 |
| Frame.WriteCounter | main.c:416-419 | the counter split leaves bytes 0..66 and byte 71 unchanged |
| Frame.WriteCounterDecodes | main.c:416-419 | bytes 67..70 decode big-endian to exactly the 32-bit counter |
| Frame.StampFrameRoundTrip | main.c:413-419 | decoding the stamped frame gives the three truncated stamps and the counter |
| Frame.DecodeThenStamp | main.c:571-598 | stamping a frame with the values its trailer decodes to reproduces the frame |
| Frame.StampFrameFootprint | main.c:413-419 | stamping touches only bytes 52..70: the sensor bytes 0..51 and byte 71 keep their values |
| Frame.StampFrameIdempotent | main.c:571-598 | the trailer bytes depend only on the stamps and counter, and stamping twice equals stamping once |
| Frame.Overwrite | main.c:352 | a completed receive puts its payload at its offset and changes no other byte |
| Scanner.Step | main.c:346-386 | an eligible step receives 4 bytes from the cursor's slave at offset 4*slave, leaves the cursor in 0..3 at (slave+1) mod 4, and keeps ReadTC set unless slave 3 was read; an out-of-range cursor reads slave 0 and moves to 1; with ReadTC clear or the bus busy nothing changes |
| Scanner.ScanFrom | main.c:346-383 | from cursor c with ReadTC set, idle steps receive channels c, c+1, ... in order, and ReadTC clears exactly at the receive of channel 3 |
| Scanner.FullScan | main.c:346-383 | from cursor 0, four idle steps receive slaves 0..3 at offsets 0, 4, 8, 12, keep ReadTC set before the fourth, end at cursor 0 with ReadTC clear, and a fifth step does nothing |
| Scanner.IdleAfterScan | main.c:346 | once ReadTC is clear, further steps issue nothing |
| Scanner.StepInRange | main.c:370-380 | a step that acts leaves the cursor in 0..3 and receives only within the 16 thermocouple bytes |
| Acquisition.Serve | main.c:393-408 | ADC0 is transferred iff its flag is set and the master is idle; ADC1 iff its flag is set, the master idle and ADC0 not pending; a flag clears only with its own transfer; at most one transfer per pass, and only the two 18-byte read-outs to offsets 16 and 34 are ever issued |
| Acquisition.PriorityThenNext | main.c:393-408 | with both flags set, ADC0 goes first and ADC1 stays pending; ADC1 is served on the next idle pass unless ADC0 fires again |
| Acquisition.BusyDefers | main.c:394-408 | a busy master leaves both flags set and issues nothing |
| Acquisition.TransfersDisjoint | main.c:396-405 | the ADC0 and ADC1 read-outs use slaves 0 and 1 and fill bytes 16..33 and 34..51 |
| Client.Initial | main.c:83-86 | at power-up no connection is ready, no control block exists and the watchdog count is 0 |
| Client.Init | main.c:125-137 | client_init issues exactly an abort of the previous pcb_open (if non-null) followed by a connect; only pcb_open changes |
| Client.Err | main.c:104-109 | a reset clears pcb_valid and changes nothing else; any other error changes nothing at all |
| Client.Connected | main.c:152-169 | success makes the connection ready and valid with a send block; failure closes the callback's block and clears pcb_valid only |
| Client.Sent | main.c:204-212 | an acknowledged send closes the callback's block, clears pcb_valid, then runs client_init (abort of pcb_open if non-null, connect); no other field changes |
| Client.SendData | main.c:226-250 | the frame is written iff a connection is ready, which clears ready, resets the count and keeps pcb_valid; otherwise the count goes up by one mod 2^32, ready is kept, and pcb_send is closed, by exactly one call, and pcb_valid cleared iff it becomes exactly 10; pcb_send and pcb_open are never changed |
| Client.Trigger | main.c:422-432 | with neither ready nor valid, client_init runs: the calls are an abort of pcb_open if non-null, then a connect, and only pcb_open changes; otherwise send_data runs: the frame is written iff the connection is ready, and on the watchdog path the count goes up by one mod 2^32, ready is kept, the only possible call is the close of pcb_send, made once iff the count becomes exactly 10, and pcb_valid is cleared at that point; send_data keeps pcb_send and pcb_open, and pcb_valid when it writes |
| Client.ConnectPendingRestarts | main.c:422-423 | a transmit during a pending connect aborts it and starts a new one, without moving the watchdog count |
| Client.ApplyKeepsInv | main.c:104-250 | every callback and transmit keeps the invariant: ready implies a send block, a frame in flight has a count below 10, and the count stays at most 10 |
| Client.WatchdogBranchInFlight | main.c:238-249 | in reachable states the watchdog branch runs only with a frame in flight and a count below 10, so the count never wraps |
| Client.StallCounts | main.c:238-249 | from count w with a frame in flight, k stalled triggers raise the count to w+k; nothing is closed before 10, and the trigger that reaches 10 closes pcb_send and clears pcb_valid |
| Client.WatchdogScenario | main.c:228-249 | after a send with no acknowledgement, 9 triggers close nothing, the 10th closes pcb_send, and the 11th reconnects with the count still 10 |
| Node.Start | main.c:281-343 | the loop starts with both masters idle, cursor 0, counter 0 and byte 71 = 71 |
| Node.ThermocoupleBranch | main.c:346-386 | the thermocouple branch acts iff ReadTC is set and SPI_MASTER_TC is idle; then it issues one 4-byte receive on SPI_MASTER_TC from the slave under the cursor (slave 0 for an out-of-range cursor) into offset 4*slave, marks the master busy, moves the cursor to (slave+1) mod 4 and clears ReadTC exactly after slave 3; it touches only the cursor, ReadTC and that master |
| Node.AdcBranches | main.c:393-408 | the ADC branches touch only the two ADC flags and SPI_MASTER_ADC and issue at most one transfer on that master: ADC0's iff its flag is set and the master idle, ADC1's iff its flag is set, the master idle and ADC0 not pending; each flag clears exactly with its own transfer; an issued transfer makes the master busy with it, and without one the master is unchanged |
| Node.TransmitBranch | main.c:411-435 | with tx_flag set, the frame is stamped and tx_flag cleared; if neither ready nor valid, client_init runs (abort of pcb_open if non-null, then connect; only pcb_open changes) and the counter is kept; otherwise the counter goes up by one mod 2^32; the stamped frame is written, exactly once, iff tx_flag is set and a connection is ready; on send_data's watchdog path the count goes up by one mod 2^32, ready is kept, and pcb_send is closed once and pcb_valid cleared iff it becomes exactly 10; send_data keeps pcb_send and pcb_open, and pcb_valid when it writes |
| Node.Iterate | main.c:345-435 | one pass issues at most the thermocouple receive followed by at most one ADC transfer, the receive iff ReadTC is set on an idle master; without tx_flag nothing is sent and frame and counter are kept; with it the frame is stamped and written iff a connection is ready |
| Node.IterateScansAndServes | main.c:346-408 | after a pass, the cursor, ReadTC and SPI_MASTER_TC are as one Scanner.Step leaves them (slave under the cursor, cursor (slave+1) mod 4, ReadTC cleared after slave 3, master busy with that receive) and unchanged when ReadTC is clear or the master busy; ADC0's transfer is issued iff its flag is set on an idle master, ADC1's iff also ADC0 is not pending, and each flag clears exactly with its own transfer |
| Node.StepInterrupts | main.c:444-476 | each interrupt event changes only the signals and issues nothing: the tick adds one ms mod 2^32, TCIRQ and the two data-ready handlers store (ms, ticks/100) in their own stamp and set their own flag, ETHIRQ sets tx_flag |
| Node.StepCompletions | main.c:352 | a completion on one master touches only that master and the frame: a matching payload lands at the pending offset and idles the master; anything else changes nothing |
| Node.StepCallbacks | main.c:104-212 | the lwIP callbacks change only the client and issue no SPI request: a successful connect makes the connection ready and valid with a send block, a failed one closes the callback's block and clears pcb_valid, an acknowledged send closes the callback's block, clears pcb_valid and reconnects, ERR_RST clears pcb_valid and other errors change nothing |
| Node.ReadyPassWrites | main.c:411-430 | a pass with tx_flag set and a ready connection writes exactly the stamped frame, which decodes to the captures and the pre-increment count, and increments the count |
| Node.WatchdogPassSkipsCount | main.c:425-431 | a pass on the watchdog path increments packet_count but writes no frame |
| Node.TransmitFrame | main.c:413-419 | the transmitted frame decodes to the truncated captures and the pre-increment counter; bytes 0..51 and 71 are unchanged |
| Node.SentFrameCarriesCount | main.c:416-430 | a frame written to lwIP in a pass carries the pre-increment packet count and the TC capture, and the pass increments the count |
| Node.Complete | main.c:396 | a matching completion puts the payload at the pending transaction's offset, makes the master idle, and changes no other byte |
| Node.RunKeepsInv | main.c:343-476 | from any state satisfying the invariant, every event sequence keeps it |
| Node.Reachable | main.c:331-476 | in every reachable state the cursor is in 0..3, and 0 whenever ReadTC is clear; byte 71 is 71; the watchdog count is at most 10 |
| Node.ScanCycleStartsAtZero | main.c:346-383 | in a reachable state, a TC timer interrupt with no scan in progress starts the scan at slave 0 |
| Node.MicrosReach1000 | main.c:450-455 | a TC capture at timer reading 100000, an Ethernet timer interrupt and a loop pass put 1000 into the frame's TC microsecond field |
| Node.LoopStamps | main.c:411-419 | a loop pass with tx_flag set leaves a frame whose trailer decodes to the three truncated captures and the count from before the pass, whatever the connection state |
| Node.PacketCountSteps | main.c:411-434 | packet_count changes only in a loop pass that calls send_data, and then by exactly one mod 2^32 |
| Node.RunPacketCount | main.c:425-431 | over any run, packet_count grows by the number of send_data calls, modulo 2^32 |
| Node.StepPacketCount | main.c:411-434 | one event adds one to packet_count, mod 2^32, if it is a loop pass that calls send_data, and nothing otherwise |
| Node.FoldCounter | main.c:425-431 | the induction behind RunPacketCount, over any transition function: if every transition adds one to the counter exactly when it is counted, a run adds the number of counted transitions, modulo 2^32 |
| Node.NoContention | main.c:347-396 | with a thermocouple scan and ADC0 both pending on idle masters, one pass issues both transactions |

## Left out

- ADC bring-up (`adc_register_config`, `xmc_ADC_setup`, main.c:481-568) is left out. These are blocking sequences of constant commands, and `configArray` is debug output. The model starts with both masters idle after bring-up.
- `DAVE_Init`, the error-halt loop, pin and slave-select setup before the loop, the delay loops, the LED toggle and the lwIP timer wiring (`tim_sys_check_timeouts_wrap`) are left out. They are platform set-up and timing.
- The SPI driver and lwIP are not modelled. They appear only as transaction records and call records. A transfer completes atomically, not byte by byte. A completion payload whose length does not match the pending transaction is ignored.
- The model assumes `tcp_new` always returns a control block, because lwIP's allocator is not modelled.
- Client.Sent: on the normal path `pcb_send` and `pcb_open` name the same block. `client_sent` aborts it through `client_close(pcb)` (main.c:207), and `client_init` then aborts `pcb_open` again (main.c:130-131). The model issues both calls but cannot say they hit the same, already freed, block.
- Pointer identity is abstracted to "non-null". So the model does not track that `pcb_send` still points at a closed block after the watchdog closes it. It also does not track that lwIP frees the block before calling `client_err`.
- Buffer aliasing is not modelled. `tcp_write` runs without the copy flag, so lwIP keeps referring to `dataArray` while later SPI transfers may overwrite it.
- Each interrupt handler and each main-loop pass is one atomic event. Interrupts that preempt the middle of a pass are not modelled, for example one arriving between `parseTime` and the counter split.
- Signals.Micros: the contract does not state a bound below 1000, because the code has none.


=== FILE: acquisition.dfy ===
/** The ADC branches of the main loop (main.c:393-408).  ADC0 is checked
    before ADC1; each, when its data-ready flag is set and SPI_MASTER_ADC is
    idle, selects its slave, starts an 18-byte transfer of the all-zero
    command into its half of the frame (offset 16 or 34) and clears its flag.
    A busy master leaves the flag set, so the request is deferred. */
module Acquisition {
  import opened Spi

  /** Width of one ADC read-out: status, four channels and a zero frame, 3 bytes each. */
  const AdcWidth: nat := 18

  /** The transfer of ADC dev (0 or 1). */
  function AdcTransfer(dev: nat): (op: Op)
    requires dev <= 1
    ensures op.master == AdcMaster && op.slave == dev && op.len == AdcWidth
  {
    Op(Transfer, AdcMaster, dev, if dev == 0 then 16 else 34, AdcWidth)
  }

  datatype Service = Service(readAdc0: bool, readAdc1: bool, bus: Bus, issued: seq<Op>)

  /** One branch: serve device dev if its flag is set and the master idle. */
  function ServeOne(flag: bool, bus: Bus, dev: nat): (r: (bool, Bus, seq<Op>))
    requires dev <= 1
    ensures r.2 == (if flag && bus.Idle? then [AdcTransfer(dev)] else [])
    ensures r.0 <==> flag && r.2 == []
    ensures r.2 == [] ==> r.1 == bus
    ensures r.2 != [] ==> r.1 == Busy(AdcTransfer(dev))
  {
    if flag && bus.Idle? then (false, Issue(bus, AdcTransfer(dev)), [AdcTransfer(dev)])
    else (flag, bus, [])
  }

  /** Both ADC branches of one main-loop iteration. */
  function Serve(readAdc0: bool, readAdc1: bool, bus: Bus): (r: Service)
    // ADC0 is served exactly when its flag is set and the master is idle
    ensures AdcTransfer(0) in r.issued <==> readAdc0 && bus.Idle?
    // ADC1 only if, in addition, ADC0 did not just take the master
    ensures AdcTransfer(1) in r.issued <==> readAdc1 && bus.Idle? && !readAdc0
    // a flag is cleared only by its own transfer, never lost and never raised
    ensures r.readAdc0 <==> readAdc0 && AdcTransfer(0) !in r.issued
    ensures r.readAdc1 <==> readAdc1 && AdcTransfer(1) !in r.issued
    // at most one transfer per iteration, and it occupies the master
    ensures |r.issued| <= 1
    // and it is one of the two read-outs: nothing else reaches the master
    ensures forall op :: op in r.issued ==> op == AdcTransfer(0) || op == AdcTransfer(1)
    ensures |r.issued| == 1 ==> bus.Idle? && r.bus == Busy(r.issued[0])
    ensures |r.issued| == 0 ==> r.bus == bus
  {
    var (f0, b0, i0) := ServeOne(readAdc0, bus, 0);
    var (f1, b1, i1) := ServeOne(readAdc1, b0, 1);
    Service(f0, f1, b1, i0 + i1)
  }

  /** Both devices pending on an idle master: ADC0 wins this iteration and
      ADC1 stays pending.  Once that transfer completes, ADC1 is served next
      unless ADC0's data-ready has fired again, in which case ADC0 wins again
      (the fixed priority can starve ADC1). */
  lemma PriorityThenNext(bus: Bus)
    requires bus.Idle?
    ensures var first := Serve(true, true, bus);
      && first.issued == [AdcTransfer(0)]
      && first.readAdc1
      && Serve(first.readAdc0, first.readAdc1, Idle).issued == [AdcTransfer(1)]
      && Serve(true, first.readAdc1, Idle).issued == [AdcTransfer(0)]
  {
  }

  /** A busy master defers both requests without touching anything. */
  lemma BusyDefers(readAdc0: bool, readAdc1: bool, op: Op)
    ensures Serve(readAdc0, readAdc1, Busy(op)) == Service(readAdc0, readAdc1, Busy(op), [])
  {
  }

  /** The two transfers land in disjoint 18-byte regions covering bytes 16..51. */
  lemma TransfersDisjoint()
    ensures AdcTransfer(0).offset + AdcTransfer(0).len == AdcTransfer(1).offset
    ensures AdcTransfer(0).offset == 16 && AdcTransfer(1).offset + AdcTransfer(1).len == 52
    ensures AdcTransfer(0).slave == 0 && AdcTransfer(1).slave == 1
  {
  }
}

=== FILE: bytes.dfy ===
/** Fixed-width unsigned integers of the firmware (uint8_t, uint32_t) and the
    big-endian byte codec used by the frame.  C's `(x >> k) & 0xff` on an
    unsigned value is `(x / 2^k) % 256`; wrap-around of `x++` is written out
    with `% U32`. */
module Bytes {

  const U8: nat := 0x100
  const U16: nat := 0x1_0000
  const U24: nat := 0x100_0000
  const U32: nat := 0x1_0000_0000

  type byte = x: int | 0 <= x < 0x100
  type uint32 = x: int | 0 <= x < 0x1_0000_0000

  /** `x++` on a uint32_t. */
  function Inc32(x: uint32): (r: uint32)
    ensures x + 1 < U32 ==> r == x + 1
    ensures x + 1 == U32 ==> r == 0
  {
    (x + 1) % U32
  }

  /** The `& 0xff` mask: the least significant byte. */
  function Lsb(x: nat): (b: byte)
    ensures (x - b) % 0x100 == 0
  {
    x % 0x100
  }

  /** 256 to the power n. */
  function Pow256(n: nat): (r: nat)
    ensures r >= 1
  {
    if n == 0 then 1 else 0x100 * Pow256(n - 1)
  }

  /** Big-endian value of a byte string: the first byte is the most significant. */
  function BE(s: seq<byte>): (r: nat)
    ensures r < Pow256(|s|)
  {
    if |s| == 0 then 0 else BE(s[..|s| - 1]) * 0x100 + s[|s| - 1]
  }

  /** The n least significant bytes of x, most significant first. */
  function EncodeBE(x: nat, n: nat): (r: seq<byte>)
    ensures |r| == n
  {
    if n == 0 then [] else EncodeBE(x / 0x100, n - 1) + [Lsb(x)]
  }

  lemma MulGap(d: nat, a: nat, b: nat)
    requires a > b
    ensures d * a >= d * b + d
  {
    var k := a - b;
    MulAtLeast(d, k);
    assert d * a == d * (b + k) == d * b + d * k;
  }

  lemma MulAtLeast(d: nat, k: nat)
    requires k >= 1
    ensures d * k >= d
  {
    assert d * k == d * (k - 1) + d;
  }

  /** Euclidean division is unique: a quotient/remainder pair determines x % d. */
  lemma ModUnique(x: nat, d: nat, q: nat, r: nat)
    requires d > 0 && r < d && x == d * q + r
    ensures x % d == r && x / d == q
  {
    var q0 := x / d;
    var r0 := x % d;
    assert d * q0 + r0 == d * q + r;
    if q0 > q {
      MulGap(d, q0, q);
    } else if q0 < q {
      MulGap(d, q, q0);
    }
  }

  /** Splitting off the low byte: x mod (256*m) is (x/256 mod m)*256 + x mod 256. */
  lemma ModSplit(x: nat, m: nat)
    requires m > 0
    ensures x % (0x100 * m) == (x / 0x100 % m) * 0x100 + x % 0x100
  {
    var q := x / 0x100;
    var r := x % 0x100;
    var q2 := q / m;
    var r2 := q % m;
    assert x == 0x100 * q + r;
    assert q == m * q2 + r2;
    assert 0x100 * q == (0x100 * m) * q2 + 0x100 * r2;
    ModUnique(x, 0x100 * m, q2, r2 * 0x100 + r);
  }

  /** Decoding the n-byte big-endian encoding of x gives x modulo 256^n. */
  lemma {:induction false} DecodeEncodeBE(x: nat, n: nat)
    ensures BE(EncodeBE(x, n)) == x % Pow256(n)
  {
    if n > 0 {
      var e := EncodeBE(x, n);
      assert e[..|e| - 1] == EncodeBE(x / 0x100, n - 1);
      DecodeEncodeBE(x / 0x100, n - 1);
      ModSplit(x, Pow256(n - 1));
    }
  }

  /** Encoding the value of a byte string with its own width gives it back. */
  lemma {:induction false} EncodeDecodeBE(s: seq<byte>)
    ensures EncodeBE(BE(s), |s|) == s
  {
    if |s| > 0 {
      var init := s[..|s| - 1];
      EncodeDecodeBE(init);
      assert BE(s) / 0x100 == BE(init);
      assert Lsb(BE(s)) == s[|s| - 1];
      assert s == init + [s[|s| - 1]];
    }
  }

  lemma DivDiv256(x: nat)
    ensures x / 0x100 / 0x100 == x / 0x1_0000
    ensures x / 0x1_0000 / 0x100 == x / 0x100_0000
  {
    var q := x / 0x1_0000;
    var r := x % 0x1_0000;
    assert x == 0x1_0000 * q + r;
    assert x / 0x100 == 0x100 * q + r / 0x100;
    var q3 := x / 0x100_0000;
    var r3 := x % 0x100_0000;
    assert x == 0x100_0000 * q3 + r3;
    assert x / 0x1_0000 == 0x100 * q3 + r3 / 0x1_0000;
  }

  /** The 2-, 3- and 4-byte encodings are the C shift-and-mask sequences. */
  lemma EncodeBEShifts(x: nat)
    ensures EncodeBE(x, 2) == [Lsb(x / 0x100), Lsb(x)]
    ensures EncodeBE(x, 3) == [Lsb(x / 0x1_0000), Lsb(x / 0x100), Lsb(x)]
    ensures EncodeBE(x, 4) == [Lsb(x / 0x100_0000), Lsb(x / 0x1_0000), Lsb(x / 0x100), Lsb(x)]
  {
    DivDiv256(x);
    DivDiv256(x / 0x100);
    assert x / 0x100 / 0x1_0000 == x / 0x100_0000 by {
      DivDiv256(x);
      DivDiv256(x / 0x100);
    }
  }

  lemma Pow256Values()
    ensures Pow256(2) == U16 && Pow256(3) == U24 && Pow256(4) == U32
  {
  }
}

=== FILE: client.dfy ===
/** The lwIP streaming client of main.c: the globals `connection_ready`,
    `pcb_valid`, `pcb_send`, `pcb_open` and the static `connect_WD` of
    `send_data`, driven by `client_init`, `send_data` and the lwIP callbacks
    `client_err`, `client_connected` and `client_sent`.  Control-block
    pointers are abstracted to "non-null" booleans, and every lwIP call
    becomes a TcpCall record. */
module Client {
  import opened Bytes

  /** `connect_WD` value at which `send_data` gives up on the connection. */
  const WatchdogLimit: nat := 10

  /** The control block a call acts on: `pcb_open`, `pcb_send`, or the one
      handed to the callback. */
  datatype Pcb = OpenPcb | SendPcb | CallbackPcb

  /** Requests made to lwIP. */
  datatype TcpCall =
    | Abort(pcb: Pcb)          // tcp_abort(pcb_open) in client_init
    | Close(pcb: Pcb)          // client_close: detach the callbacks, then tcp_abort
    | Connect                  // tcp_new, tcp_err, tcp_bind, tcp_arg, tcp_connect on a new pcb_open
    | Write(data: seq<byte>)   // tcp_sent(client_sent), tcp_write of 72 bytes, tcp_output

  /** The `err` argument of client_err: ERR_RST or any other code. */
  datatype ErrCode = ErrRst | ErrOther

  datatype State = State(
    connectionReady: bool,
    pcbValid: bool,
    pcbSend: bool,    // pcb_send != NULL
    pcbOpen: bool,    // pcb_open != NULL
    watchdog: uint32) // connect_WD

  datatype Outcome = Outcome(client: State, calls: seq<TcpCall>)

  /** Power-up: every global is zero. */
  function Initial(): (c: State)
    ensures !c.connectionReady && !c.pcbValid && !c.pcbSend && !c.pcbOpen && c.watchdog == 0
  {
    State(false, false, false, false, 0)
  }

  /** client_init: abort any previous pcb_open and start a new connection attempt. */
  function Init(c: State): (r: Outcome)
    ensures r.client.pcbOpen
    ensures r.client == c.(pcbOpen := r.client.pcbOpen)
    ensures |r.calls| == (if c.pcbOpen then 2 else 1)
    ensures r.calls[|r.calls| - 1] == Connect
    ensures Abort(OpenPcb) in r.calls <==> c.pcbOpen
    ensures c.pcbOpen ==> r.calls[0] == Abort(OpenPcb)
  {
    var aborts := if c.pcbOpen then [Abort(OpenPcb)] else [];
    Outcome(c.(pcbOpen := true), aborts + [Connect])
  }

  /** client_err: a connection reset invalidates the control block. */
  function Err(c: State, e: ErrCode): (r: State)
    ensures e == ErrRst ==> !r.pcbValid
    ensures r == c.(pcbValid := r.pcbValid)
    ensures r.pcbValid ==> c.pcbValid
    ensures e != ErrRst ==> r == c
  {
    if e == ErrRst then c.(pcbValid := false) else c
  }

  /** client_connected: on success remember the control block for the next
      send; otherwise close it and invalidate. */
  function Connected(c: State, ok: bool): (r: Outcome)
    ensures ok ==> r.client.connectionReady && r.client.pcbValid && r.client.pcbSend && r.calls == []
    ensures !ok ==> r.client == c.(pcbValid := false) && r.calls == [Close(CallbackPcb)]
    ensures r.client.watchdog == c.watchdog && r.client.pcbOpen == c.pcbOpen
  {
    if ok then Outcome(c.(connectionReady := true, pcbValid := true, pcbSend := true), [])
    else Outcome(c.(pcbValid := false), [Close(CallbackPcb)])
  }

  /** client_sent: the frame went out; close, invalidate, and reconnect at once. */
  function Sent(c: State): (r: Outcome)
    ensures !r.client.pcbValid && r.client.pcbOpen
    ensures r.client == c.(pcbValid := false, pcbOpen := true)
    ensures |r.calls| == (if c.pcbOpen then 3 else 2)
    ensures r.calls[0] == Close(CallbackPcb) && r.calls[|r.calls| - 1] == Connect
    ensures Abort(OpenPcb) in r.calls <==> c.pcbOpen
  {
    var init := Init(c.(pcbValid := false));
    Outcome(init.client, [Close(CallbackPcb)] + init.calls)
  }

  /** send_data: write the frame if a connection is ready; otherwise count a
      missed cycle and, on the call where the count becomes exactly 10,
      close pcb_send and invalidate.  The count is not reset there. */
  function SendData(c: State, data: seq<byte>): (r: Outcome)
    ensures c.connectionReady && c.pcbSend ==>
      r.calls == [Write(data)] && !r.client.connectionReady && r.client.watchdog == 0
    ensures !(c.connectionReady && c.pcbSend) ==>
      && r.client.watchdog == (c.watchdog + 1) % U32
      && |r.calls| == (if r.client.watchdog == WatchdogLimit then 1 else 0)
      && (r.client.pcbValid <==> c.pcbValid && r.client.watchdog != WatchdogLimit)
      && r.client.connectionReady == c.connectionReady
    ensures r.client.pcbSend == c.pcbSend && r.client.pcbOpen == c.pcbOpen
    ensures c.connectionReady && c.pcbSend ==> r.client.pcbValid == c.pcbValid
    ensures forall call :: call in r.calls ==> call == Write(data) || call == Close(SendPcb)
    // the frame is handed to lwIP exactly when a connection is ready ...
    ensures Write(data) in r.calls <==> c.connectionReady && c.pcbSend
    // ... and pcb_send is closed exactly on the missed cycle that makes the count 10
    ensures Close(SendPcb) in r.calls <==> !(c.connectionReady && c.pcbSend) && r.client.watchdog == WatchdogLimit
  {
    if c.connectionReady && c.pcbSend then
      Outcome(c.(connectionReady := false, watchdog := 0), [Write(data)])
    else
      var wd := Inc32(c.watchdog);
      if wd == WatchdogLimit then Outcome(c.(watchdog := wd, pcbValid := false), [Close(SendPcb)])
      else Outcome(c.(watchdog := wd), [])
  }

  /** The transmit test of the main loop: re-initialise when neither a
      connection is ready nor a control block valid. */
  predicate NeedsInit(c: State)
  {
    !c.connectionReady && !c.pcbValid
  }

  /** The connection part of the transmit branch (main.c:422-432): with
      neither a ready connection nor a valid block, client_init starts a new
      attempt and nothing is written; otherwise send_data runs, and it hands
      the frame to lwIP exactly when the connection is ready. */
  function Trigger(c: State, data: seq<byte>): (r: Outcome)
    ensures NeedsInit(c) ==>
      && r.client == c.(pcbOpen := true)
      && |r.calls| == (if c.pcbOpen then 2 else 1)
      && r.calls[|r.calls| - 1] == Connect
      && (c.pcbOpen ==> r.calls[0] == Abort(OpenPcb))
    ensures c.connectionReady && c.pcbSend ==>
      r.calls == [Write(data)] && !r.client.connectionReady && r.client.watchdog == 0
    ensures !NeedsInit(c) && !(c.connectionReady && c.pcbSend) ==>
      && r.client.watchdog == (c.watchdog + 1) % U32
      && |r.calls| == (if r.client.watchdog == WatchdogLimit then 1 else 0)
      && (forall call :: call in r.calls ==> call == Close(SendPcb))
      && (r.client.pcbValid <==> c.pcbValid && r.client.watchdog != WatchdogLimit)
      && r.client.connectionReady == c.connectionReady
    // send_data never assigns pcb_send or pcb_open, and the write path keeps pcb_valid
    ensures !NeedsInit(c) ==> r.client.pcbSend == c.pcbSend && r.client.pcbOpen == c.pcbOpen
    ensures c.connectionReady && c.pcbSend ==> r.client.pcbValid == c.pcbValid
    ensures Write(data) in r.calls <==> c.connectionReady && c.pcbSend
    ensures forall call :: call in r.calls && call.Write? ==> call.data == data
  {
    if NeedsInit(c) then Init(c) else SendData(c, data)
  }

  /** What lwIP and the main loop can do to the client. */
  datatype Event = Tx(data: seq<byte>) | ConnectOk | ConnectFailed | SentAck | Error(e: ErrCode)

  function Apply(c: State, ev: Event): (r: Outcome)
  {
    match ev
    case Tx(data) => Trigger(c, data)
    case ConnectOk => Connected(c, true)
    case ConnectFailed => Connected(c, false)
    case SentAck => Sent(c)
    case Error(e) => Outcome(Err(c, e), [])
  }

  /** The invariant of every reachable client state: a ready connection has
      a send block, a frame in flight (valid but not ready) has a watchdog
      count below 10, and the count never exceeds 10. */
  ghost predicate Inv(c: State)
  {
    && (c.connectionReady ==> c.pcbSend)
    && (c.pcbValid && !c.connectionReady ==> c.watchdog < WatchdogLimit)
    && c.watchdog <= WatchdogLimit
  }

  lemma InitialInv()
    ensures Inv(Initial())
  {
  }

  /** Every event keeps the invariant, in any order the callbacks arrive. */
  lemma ApplyKeepsInv(c: State, ev: Event)
    requires Inv(c)
    ensures Inv(Apply(c, ev).client)
  {
  }

  /** Under the invariant the watchdog branch of send_data is only reached
      with a frame in flight, so the count never wraps: `connect_WD` not
      being reset when it fires is harmless, since the next watchdog branch
      always follows a successful send, which resets it. */
  lemma WatchdogBranchInFlight(c: State, data: seq<byte>)
    requires Inv(c) && !NeedsInit(c) && !(c.connectionReady && c.pcbSend)
    ensures !c.connectionReady && c.pcbValid && c.watchdog < WatchdogLimit
    ensures Trigger(c, data).client.watchdog == c.watchdog + 1
  {
  }

  /** A transmit trigger while a connection attempt is still pending (neither
      ready nor valid, pcb_open non-null) aborts that attempt and starts a new
      one; the watchdog count does not move, so it never counts failed or
      slow connects. */
  lemma ConnectPendingRestarts(c: State, data: seq<byte>)
    requires !c.connectionReady && !c.pcbValid && c.pcbOpen
    ensures Trigger(c, data).calls == [Abort(OpenPcb), Connect]
    ensures Trigger(c, data).client == c
  {
  }

  /** k transmit triggers with no lwIP callback in between. */
  function Stall(c: State, data: seq<byte>, k: nat): (r: Outcome)
    decreases k
  {
    if k == 0 then Outcome(c, [])
    else
      var first := Trigger(c, data);
      var rest := Stall(first.client, data, k - 1);
      Outcome(rest.client, first.calls + rest.calls)
  }

  /** With a frame in flight and count w, the next k <= 10-w stalled triggers
      raise the count to w+k; nothing is closed before the count reaches 10,
      and the call that reaches it closes pcb_send and invalidates. */
  lemma {:induction false} StallCounts(c: State, data: seq<byte>, k: nat)
    requires Inv(c) && !c.connectionReady && c.pcbValid
    requires k <= WatchdogLimit - c.watchdog
    ensures var r := Stall(c, data, k);
      && r.client.watchdog == c.watchdog + k
      && (k < WatchdogLimit - c.watchdog ==> r.calls == [] && r.client.pcbValid)
      && (k == WatchdogLimit - c.watchdog ==> r.calls == [Close(SendPcb)] && !r.client.pcbValid)
      && r.client.connectionReady == c.connectionReady
    decreases k
  {
    if k > 0 {
      var first := Trigger(c, data);
      assert first.client.watchdog == c.watchdog + 1;
      if c.watchdog + 1 < WatchdogLimit {
        assert first.calls == [] && first.client.pcbValid;
        StallCounts(first.client, data, k - 1);
      } else {
        assert k == 1;
        assert first.calls == [Close(SendPcb)];
      }
    }
  }

  /** After a frame is written (count reset to 0) and its acknowledgement
      never arrives: nine triggers leave the control block valid and close
      nothing, the tenth closes pcb_send and invalidates, and an eleventh
      re-initialises the connection with the count still at 10. */
  lemma WatchdogScenario(c: State, data: seq<byte>)
    requires Inv(c) && c.connectionReady && c.pcbValid
    ensures var sent := Trigger(c, data).client;
      && Stall(sent, data, 9).client.watchdog == 9
      && Stall(sent, data, 9).client.pcbValid
      && Stall(sent, data, 9).calls == []
      && Stall(sent, data, 10).calls == [Close(SendPcb)]
      && !Stall(sent, data, 10).client.pcbValid
      && Stall(sent, data, 11).calls[0] == Close(SendPcb)
      && Stall(sent, data, 11).calls[|Stall(sent, data, 11).calls| - 1] == Connect
      && Stall(sent, data, 11).client.watchdog == WatchdogLimit
  {
    var sent := Trigger(c, data).client;
    assert sent.watchdog == 0 && !sent.connectionReady && sent.pcbValid;
    StallCounts(sent, data, 9);
    StallCounts(sent, data, 10);
    StallSplit(sent, data, 10);
  }

  /** One more trigger after k: the calls and state compose. */
  lemma {:induction false} StallSplit(c: State, data: seq<byte>, k: nat)
    ensures var r := Stall(c, data, k);
      Stall(c, data, k + 1) == Outcome(Trigger(r.client, data).client, r.calls + Trigger(r.client, data).calls)
    decreases k
  {
    if k > 0 {
      var first := Trigger(c, data);
      var mid := Stall(first.client, data, k - 1);
      var r := Stall(c, data, k);
      var last := Trigger(mid.client, data);
      StallSplit(first.client, data, k - 1);
      assert r == Outcome(mid.client, first.calls + mid.calls);
      assert Stall(first.client, data, k) == Outcome(last.client, mid.calls + last.calls);
      assert first.calls + (mid.calls + last.calls) == (first.calls + mid.calls) + last.calls;
    }
  }
}

=== FILE: frame.dfy ===
/** The 72-byte `dataArray` of main.c and the two encoders the transmit branch
    runs on it: `parseTime` (timestamps, big-endian, truncated to 24 bits of
    milliseconds and 16 bits of microseconds) and the packet-count split
    (32 bits, big-endian).  The sensor regions are filled by bus transfers,
    modelled by Overwrite. */
module Frame {
  import opened Bytes
  import opened Signals

  const PacketSize: nat := 72

  /** The fields of the frame, in offset order. */
  datatype Field =
    | Tc0 | Tc1 | Tc2 | Tc3
    | Adc0Data | Adc1Data
    | TcMs | TcUs | Adc0Ms | Adc0Us | Adc1Ms | Adc1Us
    | PacketCounter
    | Reserved

  const Layout: seq<Field> :=
    [Tc0, Tc1, Tc2, Tc3, Adc0Data, Adc1Data, TcMs, TcUs, Adc0Ms, Adc0Us, Adc1Ms, Adc1Us, PacketCounter, Reserved]

  function Offset(fld: Field): (o: nat)
  {
    match fld
    case Tc0 => 0
    case Tc1 => 4
    case Tc2 => 8
    case Tc3 => 12
    case Adc0Data => 16
    case Adc1Data => 34
    case TcMs => 52
    case TcUs => 55
    case Adc0Ms => 57
    case Adc0Us => 60
    case Adc1Ms => 62
    case Adc1Us => 65
    case PacketCounter => 67
    case Reserved => 71
  }

  function Width(fld: Field): (w: nat)
  {
    match fld
    case Tc0 | Tc1 | Tc2 | Tc3 => 4
    case Adc0Data | Adc1Data => 18
    case TcMs | Adc0Ms | Adc1Ms => 3
    case TcUs | Adc0Us | Adc1Us => 2
    case PacketCounter => 4
    case Reserved => 1
  }

  /** The bytes of one field. */
  function Slice(f: seq<byte>, fld: Field): (s: seq<byte>)
    requires |f| == PacketSize
    ensures |s| == Width(fld)
  {
    f[Offset(fld)..Offset(fld) + Width(fld)]
  }

  /** The documented layout tiles the frame: the fields follow each other
      without gap or overlap, from byte 0 to byte 71. */
  lemma LayoutTiles()
    ensures Offset(Layout[0]) == 0
    ensures forall i :: 0 <= i < |Layout| - 1 ==> Offset(Layout[i + 1]) == Offset(Layout[i]) + Width(Layout[i])
    ensures Offset(Layout[|Layout| - 1]) + Width(Layout[|Layout| - 1]) == PacketSize
  {
  }

  /** The dummy fill `dataArray[i] = i` done once before the main loop. */
  function InitialFrame(): (f: seq<byte>)
    ensures |f| == PacketSize
    ensures forall i :: 0 <= i < PacketSize ==> f[i] == i
  {
    seq(PacketSize, i requires 0 <= i < PacketSize => i)
  }

  /** Bytes a..b-1 of f and g agree. */
  ghost predicate SameOn(f: seq<byte>, g: seq<byte>, a: nat, b: nat)
    requires a <= b <= |f| == |g|
  {
    forall i :: a <= i < b ==> f[i] == g[i]
  }

  /** parseTime: writes the three stamps into bytes 52..66, one
      shift-and-mask per byte, most significant byte first. */
  function ParseTime(f: seq<byte>, tc: Stamp, adc0: Stamp, adc1: Stamp): (r: seq<byte>)
    requires |f| == PacketSize
    ensures |r| == PacketSize
    ensures SameOn(f, r, 0, 52) && SameOn(f, r, 67, PacketSize)
  {
    f[52 := Lsb(tc.ms / 0x1_0000)][53 := Lsb(tc.ms / 0x100)][54 := Lsb(tc.ms)]
     [55 := Lsb(tc.us / 0x100)][56 := Lsb(tc.us)]
     [57 := Lsb(adc0.ms / 0x1_0000)][58 := Lsb(adc0.ms / 0x100)][59 := Lsb(adc0.ms)]
     [60 := Lsb(adc0.us / 0x100)][61 := Lsb(adc0.us)]
     [62 := Lsb(adc1.ms / 0x1_0000)][63 := Lsb(adc1.ms / 0x100)][64 := Lsb(adc1.ms)]
     [65 := Lsb(adc1.us / 0x100)][66 := Lsb(adc1.us)]
  }

  /** The packet-count split: bytes 67..70, most significant byte first. */
  function WriteCounter(f: seq<byte>, count: uint32): (r: seq<byte>)
    requires |f| == PacketSize
    ensures |r| == PacketSize
    ensures SameOn(f, r, 0, 67) && r[71] == f[71]
  {
    f[67 := Lsb(count / 0x100_0000)][68 := Lsb(count / 0x1_0000)][69 := Lsb(count / 0x100)][70 := Lsb(count)]
  }

  /** What the transmit branch does to the frame before handing it on. */
  function StampFrame(f: seq<byte>, tc: Stamp, adc0: Stamp, adc1: Stamp, count: uint32): (r: seq<byte>)
    requires |f| == PacketSize
    ensures |r| == PacketSize
  {
    WriteCounter(ParseTime(f, tc, adc0, adc1), count)
  }

  /** The trailer as a receiver reads it back. */
  datatype Trailer = Trailer(tc: Stamp, adc0: Stamp, adc1: Stamp, counter: uint32)

  function DecodeTrailer(f: seq<byte>): (t: Trailer)
    requires |f| == PacketSize
    ensures t.tc.ms < U24 && t.adc0.ms < U24 && t.adc1.ms < U24
    ensures t.tc.us < U16 && t.adc0.us < U16 && t.adc1.us < U16
  {
    Pow256Values();
    Trailer(Stamp(BE(Slice(f, TcMs)), BE(Slice(f, TcUs))),
            Stamp(BE(Slice(f, Adc0Ms)), BE(Slice(f, Adc0Us))),
            Stamp(BE(Slice(f, Adc1Ms)), BE(Slice(f, Adc1Us))),
            BE(Slice(f, PacketCounter)))
  }

  /** A stamp as the frame carries it: 24 bits of ms, 16 bits of us. */
  function Truncate(st: Stamp): (t: Stamp)
    ensures t.ms < U24 && t.us < U16
    ensures t.ms <= st.ms && t.us <= st.us
  {
    Stamp(st.ms % U24, st.us % U16)
  }

  lemma ParseTimeBytes(f: seq<byte>, tc: Stamp, adc0: Stamp, adc1: Stamp)
    requires |f| == PacketSize
    ensures var r := ParseTime(f, tc, adc0, adc1);
      && Slice(r, TcMs) == EncodeBE(tc.ms, 3) && Slice(r, TcUs) == EncodeBE(tc.us, 2)
      && Slice(r, Adc0Ms) == EncodeBE(adc0.ms, 3) && Slice(r, Adc0Us) == EncodeBE(adc0.us, 2)
      && Slice(r, Adc1Ms) == EncodeBE(adc1.ms, 3) && Slice(r, Adc1Us) == EncodeBE(adc1.us, 2)
  {
    EncodeBEShifts(tc.ms);
    EncodeBEShifts(tc.us);
    EncodeBEShifts(adc0.ms);
    EncodeBEShifts(adc0.us);
    EncodeBEShifts(adc1.ms);
    EncodeBEShifts(adc1.us);
  }

  /** For each stamp, the millisecond bytes decode to ms mod 2^24 and the
      microsecond bytes to us mod 2^16. */
  lemma ParseTimeDecodes(f: seq<byte>, tc: Stamp, adc0: Stamp, adc1: Stamp)
    requires |f| == PacketSize
    ensures var r := ParseTime(f, tc, adc0, adc1);
      && BE(Slice(r, TcMs)) == tc.ms % U24 && BE(Slice(r, TcUs)) == tc.us % U16
      && BE(Slice(r, Adc0Ms)) == adc0.ms % U24 && BE(Slice(r, Adc0Us)) == adc0.us % U16
      && BE(Slice(r, Adc1Ms)) == adc1.ms % U24 && BE(Slice(r, Adc1Us)) == adc1.us % U16
  {
    ParseTimeBytes(f, tc, adc0, adc1);
    Pow256Values();
    DecodeEncodeBE(tc.ms, 3);
    DecodeEncodeBE(tc.us, 2);
    DecodeEncodeBE(adc0.ms, 3);
    DecodeEncodeBE(adc0.us, 2);
    DecodeEncodeBE(adc1.ms, 3);
    DecodeEncodeBE(adc1.us, 2);
  }

  /** Bytes 67..70 decode to exactly the counter. */
  lemma WriteCounterDecodes(f: seq<byte>, count: uint32)
    requires |f| == PacketSize
    ensures BE(Slice(WriteCounter(f, count), PacketCounter)) == count
  {
    Pow256Values();
    EncodeBEShifts(count);
    assert EncodeBE(count, 4) == Slice(WriteCounter(f, count), PacketCounter);
    DecodeEncodeBE(count, 4);
  }

  /** Decoding a stamped frame gives back the truncated stamps and the counter. */
  lemma StampFrameRoundTrip(f: seq<byte>, tc: Stamp, adc0: Stamp, adc1: Stamp, count: uint32)
    requires |f| == PacketSize
    ensures DecodeTrailer(StampFrame(f, tc, adc0, adc1, count)) == Trailer(Truncate(tc), Truncate(adc0), Truncate(adc1), count)
  {
    var p := ParseTime(f, tc, adc0, adc1);
    var r := WriteCounter(p, count);
    ParseTimeDecodes(f, tc, adc0, adc1);
    WriteCounterDecodes(p, count);
    assert Slice(r, TcMs) == Slice(p, TcMs);
    assert Slice(r, TcUs) == Slice(p, TcUs);
    assert Slice(r, Adc0Ms) == Slice(p, Adc0Ms);
    assert Slice(r, Adc0Us) == Slice(p, Adc0Us);
    assert Slice(r, Adc1Ms) == Slice(p, Adc1Ms);
    assert Slice(r, Adc1Us) == Slice(p, Adc1Us);
  }

  /** The stamp and counter writes touch only bytes 52..70: the sensor
      regions 0..51 and the reserved byte 71 are left as they were. */
  lemma StampFrameFootprint(f: seq<byte>, tc: Stamp, adc0: Stamp, adc1: Stamp, count: uint32)
    requires |f| == PacketSize
    ensures var r := StampFrame(f, tc, adc0, adc1, count);
      SameOn(f, r, 0, 52) && r[71] == f[71] && r[..52] == f[..52]
  {
  }

  /** The trailer bytes depend only on the stamps and the counter, so encoding
      is deterministic and re-encoding the same values changes nothing. */
  lemma StampFrameIdempotent(f: seq<byte>, g: seq<byte>, tc: Stamp, adc0: Stamp, adc1: Stamp, count: uint32)
    requires |f| == |g| == PacketSize
    ensures StampFrame(f, tc, adc0, adc1, count)[52..71] == StampFrame(g, tc, adc0, adc1, count)[52..71]
    ensures StampFrame(StampFrame(f, tc, adc0, adc1, count), tc, adc0, adc1, count) == StampFrame(f, tc, adc0, adc1, count)
  {
  }

  /** Re-encoding the values a frame's trailer decodes to reproduces the frame. */
  lemma DecodeThenStamp(f: seq<byte>)
    requires |f| == PacketSize
    ensures var t := DecodeTrailer(f);
      StampFrame(f, t.tc, t.adc0, t.adc1, t.counter) == f
  {
    var t := DecodeTrailer(f);
    var p := ParseTime(f, t.tc, t.adc0, t.adc1);
    ParseTimeBytes(f, t.tc, t.adc0, t.adc1);
    EncodeDecodeBE(Slice(f, TcMs));
    EncodeDecodeBE(Slice(f, TcUs));
    EncodeDecodeBE(Slice(f, Adc0Ms));
    EncodeDecodeBE(Slice(f, Adc0Us));
    EncodeDecodeBE(Slice(f, Adc1Ms));
    EncodeDecodeBE(Slice(f, Adc1Us));
    EncodeDecodeBE(Slice(f, PacketCounter));
    EncodeBEShifts(t.counter);
    var r := WriteCounter(p, t.counter);
    assert Slice(r, PacketCounter) == Slice(f, PacketCounter);
    forall i | 0 <= i < PacketSize
      ensures r[i] == f[i]
    {
      if 52 <= i < 55 { assert r[i] == Slice(f, TcMs)[i - 52]; }
      else if 55 <= i < 57 { assert r[i] == Slice(f, TcUs)[i - 55]; }
      else if 57 <= i < 60 { assert r[i] == Slice(f, Adc0Ms)[i - 57]; }
      else if 60 <= i < 62 { assert r[i] == Slice(f, Adc0Us)[i - 60]; }
      else if 62 <= i < 65 { assert r[i] == Slice(f, Adc1Ms)[i - 62]; }
      else if 65 <= i < 67 { assert r[i] == Slice(f, Adc1Us)[i - 65]; }
      else if 67 <= i < 71 { assert r[i] == Slice(f, PacketCounter)[i - 67]; }
    }
  }

  /** A bus transfer landing `payload` at `offset`: nothing outside
      offset..offset+|payload|-1 changes. */
  function Overwrite(f: seq<byte>, offset: nat, payload: seq<byte>): (r: seq<byte>)
    requires offset + |payload| <= |f|
    ensures |r| == |f|
    ensures r[offset..offset + |payload|] == payload
    ensures forall i :: 0 <= i < |f| && !(offset <= i < offset + |payload|) ==> r[i] == f[i]
  {
    f[..offset] + payload + f[offset + |payload|..]
  }
}

=== FILE: node.dfy ===
/** The whole acquisition node as main.c runs it after bring-up: the
    interrupt-fed signals, the thermocouple cursor, the two SPI masters, the
    72-byte frame, `packet_count` and the network client.  Each interrupt
    handler, each bus completion, each lwIP callback and each pass of the
    `while(1)` loop is one atomic event. */
module Node {
  import opened Bytes
  import opened Spi
  import Signals
  import Frame
  import Scanner
  import Acquisition
  import Client

  datatype State = State(
    sig: Signals.State,
    ss: byte,                 // thermocouple_ss
    tcBus: Bus,               // SPI_MASTER_TC
    adcBus: Bus,              // SPI_MASTER_ADC
    frame: seq<byte>,         // dataArray
    packetCount: uint32,      // packet_count
    client: Client.State)

  /** What one event asks of the outside world. */
  datatype Effect = Effect(node: State, spi: seq<Op>, tcp: seq<Client.TcpCall>)

  /** The state on entry to the main loop: globals zero, both masters idle
      after the blocking bring-up, and the frame holding the dummy fill. */
  function Start(): (n: State)
    ensures |n.frame| == Frame.PacketSize && n.frame[71] == 71
    ensures n.ss == 0 && n.packetCount == 0 && n.tcBus.Idle? && n.adcBus.Idle?
  {
    State(Signals.Boot(), 0, Idle, Idle, Frame.InitialFrame(), 0, Client.Initial())
  }

  /** The thermocouple branch (main.c:346-386). */
  function ThermocoupleBranch(n: State): (r: Effect)
    ensures r.node == n.(ss := r.node.ss, sig := r.node.sig, tcBus := r.node.tcBus)
    ensures r.node.sig == n.sig.(readTC := r.node.sig.readTC)
    ensures r.tcp == [] && |r.spi| <= 1
    ensures |r.spi| == 1 <==> n.sig.readTC && n.tcBus.Idle?
    ensures |r.spi| == 1 ==> r.node.tcBus == Busy(r.spi[0]) && r.spi[0].master == TcMaster
    ensures |r.spi| == 0 ==> r.node == n
    // the slave under the cursor (slave 0 for an out-of-range cursor) is read
    // into its 4-byte slot, the cursor advances mod 4, and ReadTC clears after slave 3
    ensures n.sig.readTC && n.tcBus.Idle? ==>
      var ch := if n.ss <= 3 then n.ss else 0;
      && r.spi[0] == Scanner.TcReceive(ch)
      && r.node.ss == (ch + 1) % 4
      && (r.node.sig.readTC <==> ch < 3)
  {
    var st := Scanner.Step(Scanner.Scan(n.ss, n.sig.readTC), !n.tcBus.Idle?);
    var bus := if st.issued == [] then n.tcBus else Issue(n.tcBus, st.issued[0]);
    Effect(n.(ss := st.scan.ss, sig := n.sig.(readTC := st.scan.readTC), tcBus := bus), st.issued, [])
  }

  /** The ADC0 and ADC1 branches (main.c:393-408). */
  function AdcBranches(n: State): (r: Effect)
    ensures r.node == n.(sig := r.node.sig, adcBus := r.node.adcBus)
    ensures r.node.sig == n.sig.(readAdc0 := r.node.sig.readAdc0, readAdc1 := r.node.sig.readAdc1)
    ensures r.tcp == [] && |r.spi| <= 1
    ensures forall op :: op in r.spi ==> op.master == AdcMaster
    // an issued transfer occupies SPI_MASTER_ADC; otherwise the master is left alone
    ensures |r.spi| == 1 ==> r.node.adcBus == Busy(r.spi[0])
    ensures |r.spi| == 0 ==> r.node.adcBus == n.adcBus
    // ADC0 has priority; each flag clears only with its own transfer
    ensures Acquisition.AdcTransfer(0) in r.spi <==> n.sig.readAdc0 && n.adcBus.Idle?
    ensures Acquisition.AdcTransfer(1) in r.spi <==> n.sig.readAdc1 && n.adcBus.Idle? && !n.sig.readAdc0
    ensures r.node.sig.readAdc0 <==> n.sig.readAdc0 && Acquisition.AdcTransfer(0) !in r.spi
    ensures r.node.sig.readAdc1 <==> n.sig.readAdc1 && Acquisition.AdcTransfer(1) !in r.spi
  {
    var sv := Acquisition.Serve(n.sig.readAdc0, n.sig.readAdc1, n.adcBus);
    Effect(n.(sig := n.sig.(readAdc0 := sv.readAdc0, readAdc1 := sv.readAdc1), adcBus := sv.bus), sv.issued, [])
  }

  /** The transmit branch (main.c:411-435): stamp the frame with the three
      captures and the current counter, then either re-initialise the
      connection (counter unchanged) or call send_data and count the packet,
      whether or not send_data actually wrote it. */
  function TransmitBranch(n: State): (r: Effect)
    requires |n.frame| == Frame.PacketSize
    ensures |r.node.frame| == Frame.PacketSize && r.spi == []
    ensures !n.sig.txFlag ==> r == Effect(n, [], [])
    ensures n.sig.txFlag ==>
      && r.node.sig == n.sig.(txFlag := false)
      && (Client.NeedsInit(n.client) ==>
            && r.node.packetCount == n.packetCount
            && r.node.client == n.client.(pcbOpen := true)
            && |r.tcp| == (if n.client.pcbOpen then 2 else 1)
            && r.tcp[|r.tcp| - 1] == Client.Connect
            && (n.client.pcbOpen ==> r.tcp[0] == Client.Abort(Client.OpenPcb)))
      && (!Client.NeedsInit(n.client) ==> r.node.packetCount == (n.packetCount + 1) % U32)
      && r.node.frame == Frame.StampFrame(n.frame, n.sig.tc, n.sig.adc0, n.sig.adc1, n.packetCount)
    ensures forall call :: call in r.tcp && call.Write? ==> call.data == r.node.frame
    // the stamped frame is handed to lwIP exactly when a connection is ready
    ensures Client.Write(r.node.frame) in r.tcp <==> n.sig.txFlag && n.client.connectionReady && n.client.pcbSend
    ensures n.sig.txFlag && n.client.connectionReady && n.client.pcbSend ==>
      r.tcp == [Client.Write(r.node.frame)] && !r.node.client.connectionReady && r.node.client.watchdog == 0
    // the watchdog path of send_data: one more missed cycle, and at exactly 10
    // pcb_send is closed and pcb_valid cleared
    ensures n.sig.txFlag && !Client.NeedsInit(n.client) && !(n.client.connectionReady && n.client.pcbSend) ==>
      && r.node.client.watchdog == (n.client.watchdog + 1) % U32
      && |r.tcp| == (if r.node.client.watchdog == Client.WatchdogLimit then 1 else 0)
      && (forall call :: call in r.tcp ==> call == Client.Close(Client.SendPcb))
      && (r.node.client.pcbValid <==> n.client.pcbValid && r.node.client.watchdog != Client.WatchdogLimit)
      && r.node.client.connectionReady == n.client.connectionReady
    // send_data keeps pcb_send and pcb_open, and pcb_valid when it writes
    ensures n.sig.txFlag && !Client.NeedsInit(n.client) ==>
      r.node.client.pcbSend == n.client.pcbSend && r.node.client.pcbOpen == n.client.pcbOpen
    ensures n.sig.txFlag && n.client.connectionReady && n.client.pcbSend ==> r.node.client.pcbValid == n.client.pcbValid
    ensures r.node.ss == n.ss && r.node.tcBus == n.tcBus && r.node.adcBus == n.adcBus
  {
    if !n.sig.txFlag then Effect(n, [], [])
    else
      var f := Frame.StampFrame(n.frame, n.sig.tc, n.sig.adc0, n.sig.adc1, n.packetCount);
      var o := Client.Trigger(n.client, f);
      var count := if Client.NeedsInit(n.client) then n.packetCount else Inc32(n.packetCount);
      Effect(n.(frame := f, client := o.client, packetCount := count, sig := n.sig.(txFlag := false)), [], o.calls)
  }

  /** One pass of the main loop: thermocouples, then ADC0 and ADC1, then transmit. */
  function Iterate(n: State): (r: Effect)
    requires |n.frame| == Frame.PacketSize
    ensures |r.node.frame| == Frame.PacketSize
    // SPI: at most the thermocouple receive, then at most one ADC transfer
    ensures |r.spi| <= 2
    ensures forall i, j :: 0 <= i < j < |r.spi| ==> r.spi[i].master == TcMaster && r.spi[j].master == AdcMaster
    ensures (|r.spi| > 0 && r.spi[0].master == TcMaster) <==> n.sig.readTC && n.tcBus.Idle?
    // transmit: nothing without tx_flag; with it, the stamped frame, written iff a connection is ready
    ensures !n.sig.txFlag ==> r.tcp == [] && r.node.frame == n.frame && r.node.packetCount == n.packetCount
    ensures n.sig.txFlag ==>
      && !r.node.sig.txFlag
      && r.node.frame == Frame.StampFrame(n.frame, n.sig.tc, n.sig.adc0, n.sig.adc1, n.packetCount)
    ensures Client.Write(r.node.frame) in r.tcp <==> n.sig.txFlag && n.client.connectionReady && n.client.pcbSend
  {
    var t := ThermocoupleBranch(n);
    var a := AdcBranches(t.node);
    var x := TransmitBranch(a.node);
    Effect(x.node, t.spi + a.spi, x.tcp)
  }

  /** The state a loop pass leaves behind its SPI requests: the thermocouple
      branch has taken one Scanner.Step (cursor, ReadTC and the busy master),
      and the ADC branches have served ADC0 before ADC1, each flag clearing
      only with its own transfer; the transmit branch touches none of these. */
  lemma IterateScansAndServes(n: State)
    requires |n.frame| == Frame.PacketSize
    ensures var r := Iterate(n);
      && (n.sig.readTC && n.tcBus.Idle? ==>
            var ch := if n.ss <= 3 then n.ss else 0;
            && r.node.ss == (ch + 1) % 4
            && (r.node.sig.readTC <==> ch < 3)
            && r.node.tcBus == Busy(Scanner.TcReceive(ch)))
      && (!(n.sig.readTC && n.tcBus.Idle?) ==>
            r.node.ss == n.ss && r.node.sig.readTC == n.sig.readTC && r.node.tcBus == n.tcBus)
      && (Acquisition.AdcTransfer(0) in r.spi <==> n.sig.readAdc0 && n.adcBus.Idle?)
      && (Acquisition.AdcTransfer(1) in r.spi <==> n.sig.readAdc1 && n.adcBus.Idle? && !n.sig.readAdc0)
      && (r.node.sig.readAdc0 <==> n.sig.readAdc0 && Acquisition.AdcTransfer(0) !in r.spi)
      && (r.node.sig.readAdc1 <==> n.sig.readAdc1 && Acquisition.AdcTransfer(1) !in r.spi)
  {
    var t := ThermocoupleBranch(n);
    var a := AdcBranches(t.node);
    var x := TransmitBranch(a.node);
    assert Iterate(n) == Effect(x.node, t.spi + a.spi, x.tcp);
    assert forall op :: op in t.spi ==> op.master == TcMaster;
    assert x.node.sig.readTC == t.node.sig.readTC && x.node.sig.readAdc0 == a.node.sig.readAdc0
      && x.node.sig.readAdc1 == a.node.sig.readAdc1;
  }

  /** A bus completion: the pending transaction's payload lands in the frame
      and the master is idle again.  A payload that does not match a pending
      transaction is not a completion of it and changes nothing. */
  function Complete(bus: Bus, frame: seq<byte>, payload: seq<byte>): (r: (Bus, seq<byte>))
    ensures |r.1| == |frame|
    ensures bus.Idle? || |payload| != bus.op.len || bus.op.offset + bus.op.len > |frame| ==> r == (bus, frame)
    ensures bus.Busy? && |payload| == bus.op.len && bus.op.offset + bus.op.len <= |frame| ==>
      && r.0 == Idle
      && r.1[bus.op.offset..bus.op.offset + bus.op.len] == payload
      && forall i :: 0 <= i < |frame| && !(bus.op.offset <= i < bus.op.offset + bus.op.len) ==> r.1[i] == frame[i]
  {
    if bus.Busy? && |payload| == bus.op.len && bus.op.offset + bus.op.len <= |frame| then
      (Idle, Frame.Overwrite(frame, bus.op.offset, payload))
    else (bus, frame)
  }

  /** Everything that can happen to the node. */
  datatype Event =
    | Tick                           // TimeStampIRQ
    | TcTimer(ticks: uint32)         // TCIRQ, with the TIMER_GetTime reading
    | Adc0Ready(ticks: uint32)       // ADC0_DRDY_INT
    | Adc1Ready(ticks: uint32)       // ADC1_DRDY_INT
    | EthTimer                       // ETHIRQ
    | TcDone(payload: seq<byte>)     // SPI_MASTER_TC finished its receive
    | AdcDone(payload: seq<byte>)    // SPI_MASTER_ADC finished its transfer
    | TcpConnected(ok: bool)         // client_connected
    | TcpSent                        // client_sent
    | TcpError(e: Client.ErrCode)    // client_err
    | Loop                           // one pass of while(1)

  function Step(n: State, e: Event): (r: Effect)
    requires |n.frame| == Frame.PacketSize
    ensures |r.node.frame| == Frame.PacketSize
  {
    match e
    case Tick => Effect(n.(sig := Signals.TimeStampIrq(n.sig)), [], [])
    case TcTimer(t) => Effect(n.(sig := Signals.TcIrq(n.sig, t)), [], [])
    case Adc0Ready(t) => Effect(n.(sig := Signals.Adc0Irq(n.sig, t)), [], [])
    case Adc1Ready(t) => Effect(n.(sig := Signals.Adc1Irq(n.sig, t)), [], [])
    case EthTimer => Effect(n.(sig := Signals.EthIrq(n.sig)), [], [])
    case TcDone(p) =>
      var (b, f) := Complete(n.tcBus, n.frame, p);
      Effect(n.(tcBus := b, frame := f), [], [])
    case AdcDone(p) =>
      var (b, f) := Complete(n.adcBus, n.frame, p);
      Effect(n.(adcBus := b, frame := f), [], [])
    case TcpConnected(ok) =>
      var o := Client.Connected(n.client, ok);
      Effect(n.(client := o.client), [], o.calls)
    case TcpSent =>
      var o := Client.Sent(n.client);
      Effect(n.(client := o.client), [], o.calls)
    case TcpError(err) => Effect(n.(client := Client.Err(n.client, err)), [], [])
    case Loop => Iterate(n)
  }

  /** A run of an arbitrary transition function over node states. */
  function Fold(next: (State, Event) -> State, n: State, evs: seq<Event>): (r: State)
    decreases |evs|
  {
    if evs == [] then n else Fold(next, next(n, evs[0]), evs[1..])
  }

  /** How many events along such a run satisfy p. */
  function FoldCount(next: (State, Event) -> State, p: (State, Event) -> bool, n: State, evs: seq<Event>): (k: nat)
    ensures k <= |evs|
    decreases |evs|
  {
    if evs == [] then 0
    else (if p(n, evs[0]) then 1 else 0) + FoldCount(next, p, next(n, evs[0]), evs[1..])
  }

  /** If every transition adds one to the counter exactly when p holds, a run
      adds the number of such transitions, modulo 2^32. */
  lemma {:induction false} FoldCounter(next: (State, Event) -> State, p: (State, Event) -> bool, n: State, evs: seq<Event>)
    requires forall m, e :: next(m, e).packetCount == (m.packetCount + (if p(m, e) then 1 else 0)) % U32
    ensures Fold(next, n, evs).packetCount == (n.packetCount + FoldCount(next, p, n, evs)) % U32
    decreases |evs|
  {
    if evs != [] {
      var n1 := next(n, evs[0]);
      FoldCounter(next, p, n1, evs[1..]);
      CountCompose(n.packetCount, if p(n, evs[0]) then 1 else 0, n1.packetCount,
                   FoldCount(next, p, n1, evs[1..]), Fold(next, n, evs).packetCount, FoldCount(next, p, n, evs));
    }
  }

  /** Step on a node with a well-formed frame (every reachable one); any other node is left alone. */
  function Next(n: State, e: Event): (r: State)
    ensures |n.frame| == Frame.PacketSize ==> r == Step(n, e).node
  {
    if |n.frame| == Frame.PacketSize then Step(n, e).node else n
  }

  /** Whether a transition of Next calls send_data. */
  predicate Counted(n: State, e: Event)
  {
    |n.frame| == Frame.PacketSize && CallsSendData(n, e)
  }

  /** The interrupt handlers: each changes only the signals, issues nothing,
      and does what its handler in main.c does. */
  lemma StepInterrupts(n: State, e: Event)
    requires |n.frame| == Frame.PacketSize
    requires e.Tick? || e.TcTimer? || e.Adc0Ready? || e.Adc1Ready? || e.EthTimer?
    ensures var r := Step(n, e);
      && r.spi == [] && r.tcp == []
      && r.node == n.(sig := r.node.sig)
      && (e.Tick? ==> r.node.sig == n.sig.(millisec := (n.sig.millisec + 1) % U32))
      && (e.TcTimer? ==>
            r.node.sig == n.sig.(tc := Signals.Stamp(n.sig.millisec, e.ticks / 100), readTC := true))
      && (e.Adc0Ready? ==>
            r.node.sig == n.sig.(adc0 := Signals.Stamp(n.sig.millisec, e.ticks / 100), readAdc0 := true))
      && (e.Adc1Ready? ==>
            r.node.sig == n.sig.(adc1 := Signals.Stamp(n.sig.millisec, e.ticks / 100), readAdc1 := true))
      && (e.EthTimer? ==> r.node.sig == n.sig.(txFlag := true))
  {
  }

  /** A bus completion touches only its own master and the frame: a matching
      payload lands at the pending offset and idles the master, anything else
      changes nothing. */
  lemma StepCompletions(n: State, e: Event)
    requires |n.frame| == Frame.PacketSize
    requires e.TcDone? || e.AdcDone?
    ensures var r := Step(n, e);
      var bus := if e.TcDone? then n.tcBus else n.adcBus;
      var r' := r.node.(frame := n.frame, tcBus := n.tcBus, adcBus := n.adcBus);
      && r.spi == [] && r.tcp == [] && r' == n
      && (e.TcDone? ==> r.node.adcBus == n.adcBus)
      && (e.AdcDone? ==> r.node.tcBus == n.tcBus)
      && (bus.Busy? && |e.payload| == bus.op.len && bus.op.offset + bus.op.len <= Frame.PacketSize ==>
            && (if e.TcDone? then r.node.tcBus else r.node.adcBus) == Idle
            && r.node.frame[bus.op.offset..bus.op.offset + bus.op.len] == e.payload)
      && (!(bus.Busy? && |e.payload| == bus.op.len && bus.op.offset + bus.op.len <= Frame.PacketSize) ==>
            r.node == n)
  {
  }

  /** The lwIP callbacks change only the client and issue no SPI request:
      client_connected, client_sent and client_err as in main.c. */
  lemma StepCallbacks(n: State, e: Event)
    requires |n.frame| == Frame.PacketSize
    requires e.TcpConnected? || e.TcpSent? || e.TcpError?
    ensures var r := Step(n, e);
      && r.spi == [] && r.node == n.(client := r.node.client)
      && (e.TcpConnected? && e.ok ==>
            && r.node.client == n.client.(connectionReady := true, pcbValid := true, pcbSend := true)
            && r.tcp == [])
      && (e.TcpConnected? && !e.ok ==>
            r.node.client == n.client.(pcbValid := false) && r.tcp == [Client.Close(Client.CallbackPcb)])
      && (e.TcpSent? ==>
            && r.node.client == n.client.(pcbValid := false, pcbOpen := true)
            && r.tcp[0] == Client.Close(Client.CallbackPcb)
            && r.tcp[|r.tcp| - 1] == Client.Connect)
      && (e.TcpError? ==> r.tcp == [])
      && (e.TcpError? && e.e == Client.ErrRst ==> r.node.client == n.client.(pcbValid := false))
      && (e.TcpError? && e.e != Client.ErrRst ==> r.node == n)
  {
  }

  /** The node after a sequence of events.  The recursion goes through
      RunFrom so that each unfolding exposes a single Step.  Run and
      SendCalls are the definitions the rest of the model uses; Fold and
      FoldCount below are the same run and count written over an arbitrary
      transition function, so that the counting induction (FoldCounter) never
      has to unfold Step (RunIsFold shows the two forms agree). */
  function Run(n: State, evs: seq<Event>): (r: State)
    requires |n.frame| == Frame.PacketSize
    ensures |r.frame| == Frame.PacketSize
    decreases |evs|, 1
  {
    if evs == [] then n else RunFrom(n, evs[0], evs[1..])
  }

  /** The node after event e and then the events of rest. */
  function RunFrom(n: State, e: Event, rest: seq<Event>): (r: State)
    requires |n.frame| == Frame.PacketSize
    ensures |r.frame| == Frame.PacketSize
    decreases |rest| + 1, 0
  {
    Run(Step(n, e).node, rest)
  }

  /** A pending thermocouple receive stays within the 16 thermocouple bytes;
      a pending ADC transfer is one of the two 18-byte read-outs. */
  ghost predicate BusesWellFormed(n: State)
  {
    && (n.tcBus.Busy? ==> n.tcBus.op.master == TcMaster && n.tcBus.op.offset + n.tcBus.op.len <= 16)
    && (n.adcBus.Busy? ==> n.adcBus.op == Acquisition.AdcTransfer(0) || n.adcBus.op == Acquisition.AdcTransfer(1))
  }

  /** What holds in every state the node can reach. */
  ghost predicate Inv(n: State)
  {
    && |n.frame| == Frame.PacketSize
    && n.frame[71] == 71           // the dummy fill of byte 71 is never overwritten
    && n.ss <= 3
    && (!n.sig.readTC ==> n.ss == 0)  // a scan cycle always starts at slave 0
    && BusesWellFormed(n)
    && Client.Inv(n.client)
  }

  lemma StartInv()
    ensures Inv(Start())
  {
    Client.InitialInv();
  }

  lemma IterateKeepsInv(n: State)
    requires Inv(n)
    ensures Inv(Iterate(n).node)
  {
    var t := ThermocoupleBranch(n);
    Scanner.StepInRange(Scanner.Scan(n.ss, n.sig.readTC), !n.tcBus.Idle?);
    assert Inv(t.node);
    var a := AdcBranches(t.node);
    assert Inv(a.node);
    var x := TransmitBranch(a.node);
    if a.node.sig.txFlag {
      var f := Frame.StampFrame(a.node.frame, a.node.sig.tc, a.node.sig.adc0, a.node.sig.adc1, a.node.packetCount);
      Client.ApplyKeepsInv(a.node.client, Client.Tx(f));
    }
  }

  /** Every event keeps the invariant. */
  lemma StepKeepsInv(n: State, e: Event)
    requires Inv(n)
    ensures Inv(Step(n, e).node)
  {
    match e
    case Loop => IterateKeepsInv(n);
    case TcpConnected(ok) => Client.ApplyKeepsInv(n.client, if ok then Client.ConnectOk else Client.ConnectFailed);
    case TcpSent => Client.ApplyKeepsInv(n.client, Client.SentAck);
    case TcpError(err) => Client.ApplyKeepsInv(n.client, Client.Error(err));
    case _ =>
  }

  /** Every reachable state satisfies the invariant: in particular the
      cursor stays in 0..3, byte 71 keeps its dummy value 71, and the
      watchdog count never exceeds 10. */
  lemma {:induction false} RunKeepsInv(n: State, evs: seq<Event>)
    requires Inv(n)
    ensures Inv(Run(n, evs))
    decreases |evs|
  {
    if evs != [] {
      StepKeepsInv(n, evs[0]);
      RunKeepsInv(Step(n, evs[0]).node, evs[1..]);
    }
  }

  lemma Reachable(evs: seq<Event>)
    ensures Inv(Run(Start(), evs))
    ensures Run(Start(), evs).frame[71] == 71 && Run(Start(), evs).ss <= 3
    ensures Run(Start(), evs).client.watchdog <= Client.WatchdogLimit
    ensures !Run(Start(), evs).sig.readTC ==> Run(Start(), evs).ss == 0
  {
    StartInv();
    RunKeepsInv(Start(), evs);
  }

  /** `packet_count` changes only in the transmit branch of a loop pass, and
      there by exactly one (mod 2^32) whenever send_data is called, including
      the calls that take the watchdog path and write nothing. */
  lemma PacketCountSteps(n: State, e: Event)
    requires |n.frame| == Frame.PacketSize
    ensures var counted := e.Loop? && n.sig.txFlag && !Client.NeedsInit(n.client);
      && (counted ==> Step(n, e).node.packetCount == (n.packetCount + 1) % U32)
      && (!counted ==> Step(n, e).node.packetCount == n.packetCount)
  {
    if e.Loop? {
      LoopPacketCount(n);
    }
  }

  /** The loop-pass half of PacketCountSteps. */
  lemma LoopPacketCount(n: State)
    requires |n.frame| == Frame.PacketSize
    ensures Iterate(n).node.packetCount ==
      if n.sig.txFlag && !Client.NeedsInit(n.client) then (n.packetCount + 1) % U32 else n.packetCount
  {
    var t := ThermocoupleBranch(n);
    var a := AdcBranches(t.node);
    assert a.node.sig.txFlag == n.sig.txFlag && a.node.client == n.client;
  }

  /** Whether event e, applied to n, is a loop pass that calls send_data. */
  predicate CallsSendData(n: State, e: Event)
  {
    e.Loop? && n.sig.txFlag && !Client.NeedsInit(n.client)
  }

  /** How many events of a run call send_data. */
  function SendCalls(n: State, evs: seq<Event>): (k: nat)
    requires |n.frame| == Frame.PacketSize
    ensures k <= |evs|
    decreases |evs|, 1
  {
    if evs == [] then 0 else SendCallsFrom(n, evs[0], evs[1..])
  }

  /** How many of e and then the events of rest call send_data. */
  function SendCallsFrom(n: State, e: Event, rest: seq<Event>): (k: nat)
    requires |n.frame| == Frame.PacketSize
    ensures k <= |rest| + 1
    decreases |rest| + 1, 0
  {
    (if CallsSendData(n, e) then 1 else 0) + SendCalls(Step(n, e).node, rest)
  }

  /** Counting d and then k more packets, modulo 2^32, is counting d + k. */
  lemma CountCompose(pc0: int, d: nat, pc1: int, k: nat, pc2: int, total: nat)
    requires pc1 == (pc0 + d) % U32 && pc2 == (pc1 + k) % U32 && total == d + k
    ensures pc2 == (pc0 + total) % U32
  {
    var q := (pc0 + d) / U32;
    assert pc0 + d == U32 * q + pc1;
    assert pc0 + total == U32 * q + (pc1 + k);
  }

  /** One event adds one to `packet_count` (mod 2^32) if it calls send_data, and nothing otherwise. */
  lemma StepPacketCount(n: State, e: Event)
    requires |n.frame| == Frame.PacketSize
    ensures Step(n, e).node.packetCount == (n.packetCount + (if CallsSendData(n, e) then 1 else 0)) % U32
  {
    PacketCountSteps(n, e);
  }

  /** Run and SendCalls are the generic run and count for Next and Counted. */
  lemma {:induction false} RunIsFold(n: State, evs: seq<Event>)
    requires |n.frame| == Frame.PacketSize
    ensures Run(n, evs) == Fold(Next, n, evs)
    ensures SendCalls(n, evs) == FoldCount(Next, Counted, n, evs)
    decreases |evs|
  {
    if evs != [] {
      RunIsFold(Step(n, evs[0]).node, evs[1..]);
    }
  }

  /** Over a run, `packet_count` grows by the number of send_data calls, modulo 2^32. */
  lemma RunPacketCount(n: State, evs: seq<Event>)
    requires |n.frame| == Frame.PacketSize
    ensures Run(n, evs).packetCount == (n.packetCount + SendCalls(n, evs)) % U32
  {
    RunIsFold(n, evs);
    FoldPacketCount(n, evs);
  }

  /** RunPacketCount stated over the fold of Next. */
  lemma FoldPacketCount(n: State, evs: seq<Event>)
    ensures Fold(Next, n, evs).packetCount == (n.packetCount + FoldCount(Next, Counted, n, evs)) % U32
  {
    NextCounts(Next, Counted);
    FoldCounter(Next, Counted, n, evs);
  }

  /** Every transition of Next adds one to the counter exactly when it calls
      send_data (stated for Next and Counted as function values). */
  lemma NextCounts(next: (State, Event) -> State, p: (State, Event) -> bool)
    requires next == Next && p == Counted
    ensures forall m, e :: next(m, e).packetCount == (m.packetCount + (if p(m, e) then 1 else 0)) % U32
  {
    forall m, e
      ensures next(m, e).packetCount == (m.packetCount + (if p(m, e) then 1 else 0)) % U32
    {
      if |m.frame| == Frame.PacketSize {
        StepPacketCount(m, e);
      }
    }
  }

  /** The thermocouples and the ADCs use different SPI masters, so a pending
      thermocouple scan does not hold up ADC0: with both requests pending and
      both masters idle, one pass issues both transactions. */
  lemma NoContention(n: State)
    requires Inv(n)
    requires n.sig.readTC && n.sig.readAdc0 && n.tcBus.Idle? && n.adcBus.Idle?
    ensures Iterate(n).spi == [Scanner.TcReceive(n.ss), Acquisition.AdcTransfer(0)]
    ensures !Iterate(n).node.sig.readAdc0
  {
  }

  /** The frame the transmit branch leaves behind (and hands to send_data)
      decodes to the latest captures, truncated, and to the packet count
      from before the increment; the sensor bytes 0..51 and byte 71 are as
      the bus transfers left them. */
  lemma TransmitFrame(n: State)
    requires |n.frame| == Frame.PacketSize && n.sig.txFlag
    ensures var f := TransmitBranch(n).node.frame;
      && Frame.DecodeTrailer(f) ==
           Frame.Trailer(Frame.Truncate(n.sig.tc), Frame.Truncate(n.sig.adc0), Frame.Truncate(n.sig.adc1), n.packetCount)
      && f[..52] == n.frame[..52] && f[71] == n.frame[71]
  {
    Frame.StampFrameRoundTrip(n.frame, n.sig.tc, n.sig.adc0, n.sig.adc1, n.packetCount);
    Frame.StampFrameFootprint(n.frame, n.sig.tc, n.sig.adc0, n.sig.adc1, n.packetCount);
  }

  /** A frame handed to lwIP in a loop pass carries the latest thermocouple
      capture (truncated) and the packet count from before the increment. */
  lemma SentFrameCarriesCount(n: State, call: Client.TcpCall)
    requires |n.frame| == Frame.PacketSize
    requires call in Iterate(n).tcp && call.Write?
    ensures n.sig.txFlag && !Client.NeedsInit(n.client)
    ensures Frame.DecodeTrailer(call.data).counter == n.packetCount
    ensures Iterate(n).node.packetCount == (n.packetCount + 1) % U32
    ensures Frame.DecodeTrailer(call.data).tc == Frame.Truncate(n.sig.tc)
  {
    var t := ThermocoupleBranch(n);
    var a := AdcBranches(t.node);
    var x := TransmitBranch(a.node);
    assert a.node.sig.txFlag == n.sig.txFlag && a.node.client == n.client && a.node.packetCount == n.packetCount;
    assert a.node.sig.tc == n.sig.tc;
    assert call in x.tcp;
    if n.sig.txFlag {
      assert call.data == x.node.frame;
      TransmitFrame(a.node);
    }
  }

  /** The converse of SentFrameCarriesCount: a pass with tx_flag set and a
      ready connection writes exactly the stamped frame, once, and that frame
      carries the latest captures and the pre-increment count. */
  lemma ReadyPassWrites(n: State)
    requires |n.frame| == Frame.PacketSize
    requires n.sig.txFlag && n.client.connectionReady && n.client.pcbSend
    ensures var r := Iterate(n);
      && r.tcp == [Client.Write(r.node.frame)]
      && r.node.packetCount == (n.packetCount + 1) % U32
      && Frame.DecodeTrailer(r.node.frame) ==
           Frame.Trailer(Frame.Truncate(n.sig.tc), Frame.Truncate(n.sig.adc0), Frame.Truncate(n.sig.adc1), n.packetCount)
  {
    var t := ThermocoupleBranch(n);
    var a := AdcBranches(t.node);
    assert a.node.sig.txFlag && a.node.client == n.client && a.node.packetCount == n.packetCount;
    assert a.node.sig.tc == n.sig.tc && a.node.sig.adc0 == n.sig.adc0 && a.node.sig.adc1 == n.sig.adc1;
    TransmitFrame(a.node);
  }

  /** A pass that takes the watchdog path of send_data (tx_flag set, block
      valid, connection not ready) still advances packet_count, but hands no
      frame to lwIP: the receiver sees a gap in the counter although no
      packet was lost. */
  lemma WatchdogPassSkipsCount(n: State)
    requires |n.frame| == Frame.PacketSize
    requires n.sig.txFlag && n.client.pcbValid && !n.client.connectionReady
    ensures Iterate(n).node.packetCount == (n.packetCount + 1) % U32
    ensures forall call :: call in Iterate(n).tcp ==> !call.Write?
  {
    var t := ThermocoupleBranch(n);
    var a := AdcBranches(t.node);
    assert a.node.sig.txFlag && a.node.client == n.client && a.node.packetCount == n.packetCount;
  }

  /** In a reachable state, a thermocouple timer interrupt that finds no scan
      in progress starts the scan at slave 0.  From there each loop pass that
      finds SPI_MASTER_TC idle takes one Scanner.Step (IterateScansAndServes
      states the same slave, cursor and ReadTC update), so the cycle follows
      Scanner.FullScan. */
  lemma ScanCycleStartsAtZero(n: State, ticks: uint32)
    requires Inv(n) && !n.sig.readTC
    ensures var m := Step(n, TcTimer(ticks)).node;
      m.ss == 0 && m.sig.readTC && Inv(m)
  {
  }

  /** The microsecond stamp is not kept below 1000: a thermocouple capture
      taken at a timer reading of 100000 (one millisecond into the period),
      followed by a transmit, puts 1000 into the frame's TC microsecond field. */
  lemma MicrosReach1000(n: State)
    requires |n.frame| == Frame.PacketSize
    ensures var n2 := Step(Step(n, TcTimer(100000)).node, EthTimer).node;
      Frame.DecodeTrailer(Iterate(n2).node.frame).tc.us == 1000
  {
    var n2 := Step(Step(n, TcTimer(100000)).node, EthTimer).node;
    assert n2.sig.tc.us == 1000 && n2.sig.txFlag;
    LoopStamps(n2);
  }

  /** Whatever the connection state, a loop pass with tx_flag set leaves the
      stamped frame, whose trailer decodes to the truncated captures and the
      count from before the pass. */
  lemma LoopStamps(n: State)
    requires |n.frame| == Frame.PacketSize && n.sig.txFlag
    ensures Frame.DecodeTrailer(Iterate(n).node.frame) ==
      Frame.Trailer(Frame.Truncate(n.sig.tc), Frame.Truncate(n.sig.adc0), Frame.Truncate(n.sig.adc1), n.packetCount)
  {
    Frame.StampFrameRoundTrip(n.frame, n.sig.tc, n.sig.adc0, n.sig.adc1, n.packetCount);
  }
}

=== FILE: scanner.dfy ===
/** The thermocouple branch of the main loop (main.c:346-386): while ReadTC
    is set and SPI_MASTER_TC is idle, each iteration selects the slave named
    by `thermocouple_ss`, receives 4 bytes into that channel's slot of the
    frame, and advances the cursor; after slave 3 the cursor wraps to 0 and
    ReadTC is cleared. */
module Scanner {
  import opened Bytes
  import opened Spi

  /** `thermocouple_ss` (a uint8_t, so it may hold any byte) and ReadTC. */
  datatype Scan = Scan(ss: byte, readTC: bool)

  datatype StepResult = StepResult(scan: Scan, issued: seq<Op>)

  /** The receive for thermocouple channel ch: slave select ch, offset 4*ch. */
  function TcReceive(ch: nat): (op: Op)
    ensures op.master == TcMaster && op.slave == ch && op.offset == 4 * ch && op.len == 4
  {
    Op(Receive, TcMaster, ch, 4 * ch, 4)
  }

  /** The receives of channels from..from+k-1, in order. */
  function Receives(from: nat, k: nat): (ops: seq<Op>)
    ensures |ops| == k
    ensures forall i :: 0 <= i < k ==> ops[i] == TcReceive(from + i)
    decreases k
  {
    if k == 0 then [] else [TcReceive(from)] + Receives(from + 1, k - 1)
  }

  /** One pass through the thermocouple branch; `busy` is what
      SPI_MASTER_IsRxBusy(&SPI_MASTER_TC) reports. */
  function Step(s: Scan, busy: bool): (r: StepResult)
    ensures !s.readTC || busy ==> r == StepResult(s, [])
    ensures s.readTC && !busy ==>
      var ch := if s.ss <= 3 then s.ss else 0;
      && r.issued == [TcReceive(ch)]
      && r.scan.ss <= 3
      && r.scan.ss == (ch + 1) % 4
      && (r.scan.readTC <==> ch < 3)
  {
    if !s.readTC || busy then StepResult(s, [])
    else
      // the `default` case: an out-of-range cursor is reset and slave 0 is read
      var ch := if s.ss <= 3 then s.ss else 0;
      var next := ch + 1;
      if next > 3 then StepResult(Scan(0, false), [TcReceive(ch)])
      else StepResult(Scan(next, true), [TcReceive(ch)])
  }

  /** k iterations that each find the TC bus idle. */
  function RunIdle(s: Scan, k: nat): (r: StepResult)
    decreases k
  {
    if k == 0 then StepResult(s, [])
    else
      var first := Step(s, false);
      var rest := RunIdle(first.scan, k - 1);
      StepResult(rest.scan, first.issued + rest.issued)
  }

  /** From cursor c <= 3 with ReadTC set, k <= 4-c idle iterations receive
      channels c..c+k-1 in order; ReadTC stays set until the receive of
      channel 3, which wraps the cursor to 0 and clears it. */
  lemma {:induction false} ScanFrom(c: nat, k: nat)
    requires c <= 3 && k <= 4 - c
    ensures var r := RunIdle(Scan(c, true), k);
      && r.issued == Receives(c, k)
      && (k < 4 - c ==> r.scan == Scan(c + k, true))
      && (k == 4 - c ==> r.scan == Scan(0, false))
    decreases k
  {
    if k > 0 {
      var first := Step(Scan(c, true), false);
      if c < 3 {
        assert first.scan == Scan(c + 1, true);
        ScanFrom(c + 1, k - 1);
      } else {
        assert first.scan == Scan(0, false);
        assert k == 1;
      }
    }
  }

  /** A trigger cycle: from cursor 0, four idle iterations receive channels
      0, 1, 2, 3 at offsets 0, 4, 8, 12 in that order, do not clear ReadTC
      before the fourth, and end with cursor 0 and ReadTC clear; a fifth
      iteration then does nothing until the next trigger. */
  lemma FullScan()
    ensures RunIdle(Scan(0, true), 4).issued ==
      [Op(Receive, TcMaster, 0, 0, 4), Op(Receive, TcMaster, 1, 4, 4),
       Op(Receive, TcMaster, 2, 8, 4), Op(Receive, TcMaster, 3, 12, 4)]
    ensures RunIdle(Scan(0, true), 4).scan == Scan(0, false)
    ensures forall k :: 0 <= k < 4 ==> RunIdle(Scan(0, true), k).scan == Scan(k, true)
    ensures RunIdle(Scan(0, true), 5) == RunIdle(Scan(0, true), 4)
  {
    ScanFrom(0, 4);
    forall k | 0 <= k < 4
      ensures RunIdle(Scan(0, true), k).scan == Scan(k, true)
    {
      ScanFrom(0, k);
    }
    IdleAfterScan(Scan(0, true), 4);
  }

  /** Once ReadTC is clear, further iterations issue nothing. */
  lemma {:induction false} IdleAfterScan(s: Scan, k: nat)
    requires !RunIdle(s, k).scan.readTC
    ensures RunIdle(s, k + 1) == RunIdle(s, k)
    decreases k
  {
    if k > 0 {
      IdleAfterScan(Step(s, false).scan, k - 1);
    }
  }

  /** Whatever the cursor holds, a step that acts leaves it in 0..3, and it
      never issues a receive outside the 16 thermocouple bytes. */
  lemma StepInRange(s: Scan, busy: bool)
    ensures Step(s, busy).scan.ss <= 3 || Step(s, busy).scan == s
    ensures forall op :: op in Step(s, busy).issued ==>
      op.master == TcMaster && op.slave <= 3 && op.offset + op.len <= 16
  {
  }
}

=== FILE: signals.dfy ===
/** The interrupt-fed part of the firmware's globals: the millisecond clock,
    the three (ms, us) capture stamps and the four request flags.  Each
    interrupt handler is one atomic event; the raw reading of the
    microsecond timer (TIMER_GetTime, in units of 10 ns) is a parameter,
    since the timer hardware is not part of this model. */
module Signals {
  import opened Bytes

  /** A capture stamp: `X_ms` and `X_us` of main.c. */
  datatype Stamp = Stamp(ms: uint32, us: uint32)

  /** ReadTC, ReadADC0, ReadADC1 and tx_flag only ever hold 0 or 1, so they are booleans here. */
  datatype State = State(
    millisec: uint32,
    tc: Stamp,
    adc0: Stamp,
    adc1: Stamp,
    readTC: bool,
    readAdc0: bool,
    readAdc1: bool,
    txFlag: bool)

  /** All globals start at zero. */
  function Boot(): (s: State)
    ensures s.millisec == 0 && s.tc == s.adc0 == s.adc1 == Stamp(0, 0)
    ensures !s.readTC && !s.readAdc0 && !s.readAdc1 && !s.txFlag
  {
    State(0, Stamp(0, 0), Stamp(0, 0), Stamp(0, 0), false, false, false, false)
  }

  /** The microsecond reading: TIMER_GetTime returns hundredths of a microsecond. */
  function Micros(ticks: uint32): (us: uint32)
    ensures us * 100 <= ticks < us * 100 + 100
  {
    ticks / 100
  }

  /** A capture of the current clock with a timer reading. */
  function Capture(s: State, ticks: uint32): (st: Stamp)
    ensures st.ms == s.millisec
    ensures st.us * 100 <= ticks < st.us * 100 + 100
  {
    Stamp(s.millisec, Micros(ticks))
  }

  /** TimeStampIRQ: one more millisecond of uptime, wrapping at 2^32. */
  function TimeStampIrq(s: State): (s': State)
    ensures s'.millisec == (s.millisec + 1) % U32
    ensures s' == s.(millisec := s'.millisec)
  {
    s.(millisec := Inc32(s.millisec))
  }

  /** TCIRQ: stamp the thermocouple capture and request a scan. */
  function TcIrq(s: State, ticks: uint32): (s': State)
    ensures s'.readTC && s'.tc.ms == s.millisec && s'.tc.us == ticks / 100
    ensures s' == s.(tc := s'.tc, readTC := true)
  {
    s.(tc := Capture(s, ticks), readTC := true)
  }

  /** ADC0_DRDY_INT: stamp ADC0's data-ready and request its transfer. */
  function Adc0Irq(s: State, ticks: uint32): (s': State)
    ensures s'.readAdc0 && s'.adc0.ms == s.millisec && s'.adc0.us == ticks / 100
    ensures s' == s.(adc0 := s'.adc0, readAdc0 := true)
  {
    s.(adc0 := Capture(s, ticks), readAdc0 := true)
  }

  /** ADC1_DRDY_INT: stamp ADC1's data-ready and request its transfer. */
  function Adc1Irq(s: State, ticks: uint32): (s': State)
    ensures s'.readAdc1 && s'.adc1.ms == s.millisec && s'.adc1.us == ticks / 100
    ensures s' == s.(adc1 := s'.adc1, readAdc1 := true)
  {
    s.(adc1 := Capture(s, ticks), readAdc1 := true)
  }

  /** ETHIRQ: request a transmission (the LED toggle is not modelled). */
  function EthIrq(s: State): (s': State)
    ensures s'.txFlag
    ensures s' == s.(txFlag := true)
  {
    s.(txFlag := true)
  }

  /** The capture handlers have disjoint single-writer slices, so any two of
      them give the same state in either order; the clock tick does not
      commute with a capture, which reads the clock. */
  lemma CapturesCommute(s: State, t1: uint32, t2: uint32)
    ensures TcIrq(Adc0Irq(s, t2), t1) == Adc0Irq(TcIrq(s, t1), t2)
    ensures TcIrq(Adc1Irq(s, t2), t1) == Adc1Irq(TcIrq(s, t1), t2)
    ensures Adc0Irq(Adc1Irq(s, t2), t1) == Adc1Irq(Adc0Irq(s, t1), t2)
    ensures TcIrq(TimeStampIrq(s), t1).tc.ms == (TimeStampIrq(TcIrq(s, t1))).tc.ms + 1 ||
            (s.millisec + 1 == U32 && TcIrq(TimeStampIrq(s), t1).tc.ms == 0)
  {
  }
}

=== FILE: spi.dfy ===
/** The two SPI masters of the board as abstract resources.  The SPI driver is
    not part of this model: a master is either idle or busy with the one
    transaction last issued on it, and `SPI_MASTER_IsRxBusy` reads that state.
    A transaction becomes a record of what the main loop asked for. */
module Spi {

  /** SPI_MASTER_TC serves the four thermocouples, SPI_MASTER_ADC the two ADCs. */
  datatype Master = TcMaster | AdcMaster

  /** SPI_MASTER_Receive, or SPI_MASTER_Transfer sending the all-zero `null` buffer. */
  datatype Kind = Receive | Transfer

  /** One transaction: on which master, with which slave select, landing
      `len` bytes at `offset` of the frame. */
  datatype Op = Op(kind: Kind, master: Master, slave: nat, offset: nat, len: nat)

  /** The state `SPI_MASTER_IsRxBusy` reports. */
  datatype Bus = Idle | Busy(op: Op)

  /** Issuing a transaction occupies the master until its completion. */
  function Issue(b: Bus, op: Op): (r: Bus)
    requires b.Idle?
    ensures !r.Idle? && r.op == op
  {
    Busy(op)
  }
}
